=== FILE: README.md ===
# twitter-vr, the pure logic under the hand-tracked tweet wall

A model in Dafny of the sequential logic of a browser VR prototype that shows
a horizontally scrollable wall of tweet cards, scrolled with a hand-tracked
finger. Rendering, hand tracking and HTTP are outside the model. What
remains are small step functions and lookups:

- `Feed`: search-result pages and `getTweet`. It maps a flat virtual index
  onto the pages loaded so far by walking a running sum of page lengths.
- `Cards`: the five card slots of the row. Covers each card's wrap counter
  and wrap step, its virtual index `objectIndex + numWraps * 5`, its
  visibility, and the choice of what it displays. Both the paginated card
  of the client and the older single-page card are modelled.
- `TrimmedText`: the loop between layout and content that trims a text at
  the last fully visible line. A sync step records a cut from the caret;
  a pure step cuts the text there and drops trailing whitespace.
- `Scroll`: drag-to-scroll, momentum with deceleration, and the spring back
  to the start.
- `Touch`: the per-frame state machine turning hit / no-hit observations
  into touch-start, touch-frame and touch-end events.
- `ThumbsUp`: the thumbs-up decision over joint distances.
- `Params`: the search request builder. It has four append-only key lists
  and renders them as a query-string suffix. A decoder for that suffix is
  its partner: decoding a rendered builder gives back that builder.
- `Strings`, `Wrappers`: split/join with their round trip, and `Option`.

Positions, velocities and times are exact `real`s. Joint distances and
raycast hits are inputs. Text layout (troika's caret lookup) is an input too:
a caret, or `None` when the lookup throws.

## Model

| member | source | states |
|---|---|---|
| Feed.Scan | client/src/index.tsx:84-99 | the loop over pages yields `null` only for a position before the current page, and a found tweet is one of the remaining pages' tweets |
| Feed.FindUser | client/src/index.tsx:89-91 | the user found is the first with the tweet's author id; none is found exactly when no user has that id |
| Feed.GetTweet | client/src/index.tsx:82-83 | a query that has not succeeded gives `null`; the "logic error" throw is never reached |
| Feed.ScanNeverFails | client/src/index.tsx:93-94 | the running-sum loop never takes the throw branch, for every index and every list of pages |
| Feed.GetTweetInRange | client/src/index.tsx:84-92 | for an index on page p, the result is element `index` of the concatenated pages, with the first user of page p's own users whose id is the author id |
| Feed.GetTweetFound | client/src/index.tsx:85-92 | every index in [0, total length) yields `foundTweet` carrying element `index` of the concatenated pages |
| Feed.GetTweetPastEnd | client/src/index.tsx:93-99 | an index at or past the total length yields `outOfBounds` |
| Feed.GetTweetNegative | client/src/index.tsx:86-88 | a negative index hits an undefined element and yields `null`; with no pages loaded it yields `outOfBounds` |
| Feed.Locate | client/src/index.tsx:84-86 | every in-range index lies on some page at some position, at the running-sum offset of that page |
| Feed.FlattenIndex | client/src/index.tsx:85-87 | tweet i of page p is element offset(p) + i of the concatenated pages |
| Cards.ConstantValues | client/src/index.tsx:123-130 | card width 0.3, row width 1.5, wrap threshold 0.825, which is more than half a row |
| Cards.TweetIndex | client/src/index.tsx:151 | for a card in one of the five slots, the slot is the virtual index modulo 5 and the wrap count its quotient |
| Cards.TweetIndexInjective | client/src/index.tsx:151 | two cards in the five slots never show the same virtual index, at any wrap counts |
| Cards.SlotOfRecovers | src/index.tsx:111-112 | slot and wrap count are recovered from the index they show |
| Cards.SlotOfShows | client/src/index.tsx:151 | every virtual index, negative ones included, is shown by the slot and wrap count `SlotOf` names, and by no other slot and wrap count |
| Cards.OwnPosition | client/src/index.tsx:206 | a card's x inside the group is its virtual index times the card width |
| Cards.WrapStep | client/src/index.tsx:206-216 | the wrap counter drops by one when the card is right of the threshold, rises by one when left of minus the threshold, and otherwise stays |
| Cards.WrapStepWith | src/index.tsx:139-150 | for any threshold, the counter moves by -1, +1 or 0 according to the relative position |
| Cards.WrapMovesOneRow | client/src/index.tsx:206-216 | a card right of the threshold wraps exactly one row width to the left, one left of minus the threshold exactly one row width to the right, and after any wrap its relative position (parent x plus own x) is strictly closer to 0 than before |
| Cards.WrapNeverReverses | src/index.tsx:74-76 | with the parent held still, a card that has just wrapped does not wrap back on the next frame |
| Cards.NoReversalAboveHalfRow | client/src/index.tsx:128-130 | any threshold of at least half a row rules out wrapping straight back |
| Cards.ReversalBelowHalfRow | src/index.tsx:74-75 | any non-negative threshold below half a row lets a card at mid-row wrap back and forth |
| Cards.TweetContent | client/src/index.tsx:179-184 | a found tweet shows its text, with the author's name, handle and image, or "User not found", "user_not_found" and the default image |
| Cards.Select | client/src/index.tsx:164-191 | priority error, then loading (query unsettled, or out of bounds with a next page), then found tweet, then hidden with empty strings |
| Cards.CardContent | client/src/index.tsx:151-191 | the paginated card shows the error or loading content while the query failed or is loading, and is hidden only when its virtual index is not on a loaded page |
| Cards.CardShowsFeedTweet | client/src/index.tsx:151-154 | a card whose index is on a loaded page is shown, with that element of the concatenated pages as its body |
| Cards.CardPastLoadedPages | client/src/index.tsx:155-162 | past the loaded pages, a card shows loading while a next page exists and is hidden once none does |
| Cards.Visible | client/src/index.tsx:222 | the `visible` prop of a card: not wrapped left of the start and not hidden |
| Cards.CardVisibility | client/src/index.tsx:222 | once results are in, a card is visible iff numWraps >= 0 and its tweet is loaded or may still be fetched |
| Cards.SelectLegacy | src/index.tsx:100-126 | the single-page card: error, loading, the tweet at `objectIndex + numWraps * 5` in the page with its first matching author's name and handle (or "User not found" and "user_not_found"), or hidden when no tweet is there; its picture is always the one texture loaded up front |
| Cards.LegacyVisibility | src/index.tsx:155 | the single-page card is visible iff numWraps >= 0 and its index is inside the page |
| Cards.PaginatedGeneralisesLegacy | src/index.tsx:111-126 | with one page and no next page, the paginated card, with its picture replaced by the fixed texture, is exactly the single-page card |
| Cards.BodyText | client/src/index.tsx:195-202 | the card's body line is a prefix of its body; it is the whole body unless this body was the one last checked and the recorded cut falls inside it; otherwise it ends before the cut with the cut-off tail and no trailing whitespace kept |
| Cards.BodySync | client/src/index.tsx:257-290 | the card's sync records its body and cuts exactly when the caret's y is less than one line height above the clip bottom y = -0.18 (y points up), at the caret's `charIndex`; a body already checked is left as it is |
| TrimmedText.TrimEnd | src/index.tsx:132 | `trimEnd` gives the longest prefix not ending in JavaScript whitespace; everything dropped is whitespace |
| TrimmedText.Trimmed | client/src/useTrimmedText.ts:48-56 | the result is a prefix of the text. It is the whole text unless the text is the one last checked and longer than the cut; then it is at most the cut long, ends in non-whitespace, and only whitespace lies between it and the cut |
| TrimmedText.Sync | client/src/useTrimmedText.ts:18-43 | sync changes nothing for the text last checked. Otherwise it records the text, with the caret's index as cut iff the caret lookup succeeded and caret.y - lineHeight < checkY, and Infinity otherwise |
| TrimmedText.InitialUntrimmed | client/src/useTrimmedText.ts:7-10 | from the initial state (null, Infinity) the text is shown whole |
| TrimmedText.SyncIdempotent | src/index.tsx:193 | a second sync of the same text is a no-op, whatever the layout reports |
| TrimmedText.NoCutShowsAll | client/src/useTrimmedText.ts:32-44 | a sync with no caret, a caret at least one line height above the clip bottom, or a cut at or past the end leaves the text whole |
| TrimmedText.CutTrims | client/src/useTrimmedText.ts:27-31 | a sync whose cut falls inside the text trims it to at most the cut, with trailing whitespace removed |
| TrimmedText.StaleCutIgnored | src/index.tsx:128 | a cut recorded for another text is ignored |
| Scroll.TouchStart | client/src/index.tsx:335-339 | touch start begins dragging and records the finger's and the group's x |
| Scroll.TouchFrame | client/src/index.tsx:340-351 | the group's displacement since touch start equals the finger's; the velocity times dt is this frame's movement |
| Scroll.DragFollowsFinger | src/index.tsx:273-284 | after any number of drag frames, group x is start group x plus the last finger x minus the start finger x |
| Scroll.NoJumpOnTouch | src/index.tsx:268-272 | touching down and not moving leaves the group in place with zero velocity |
| Scroll.TouchEnd | client/src/index.tsx:352-354 | touch end stops dragging and keeps position and velocity for momentum |
| Scroll.Decelerate | client/src/index.tsx:381-390 | the velocity is scaled by 1 - 0.0027 dt, or becomes zero exactly when it was zero, when the frame lasts at least 1/0.0027 ms (the scaled value would change sign), or when the scaled speed is below 0.00001; it never changes sign and does not grow for a non-negative frame time |
| Scroll.Momentum | client/src/index.tsx:361-395 | a momentum frame snaps an offset in (0, 0.00001) to position 0 and velocity 0; otherwise the new velocity is the decelerated one, so it keeps its sign and does not speed up |
| Scroll.MomentumAtRest | src/index.tsx:298-308 | at rest at or left of the start, a momentum frame changes nothing |
| Scroll.SpringPullsBack | client/src/index.tsx:365-374 | without velocity, the spring pulls a positive offset towards zero without overshooting, for frames up to 100 ms |
| Scroll.MomentumMoves | src/index.tsx:294-328 | the group moves by the spring term plus velocity times frame time |
| Scroll.MomentumFrame | client/src/index.tsx:361-415 | nothing moves while dragging; otherwise an offset inside the snap band snaps to 0 and stops, elsewhere the group moves by the spring plus velocity times the frame time and the velocity decelerates; the frame time is recorded on every frame |
| Touch.Step | client/src/useTouch.tsx:30-67 | start fires on a hit while not touching and sets touching. Frame fires on a hit while touching, with dt = time - previous frame time. End fires on the first miss while touching, with the start intersection, and clears touching. Without hands or mesh nothing fires. lastTime is always updated |
| Touch.Run | client/src/useTouch.tsx:30-67 | the callback over successive frames never yields more events than frames, leaves the state untouched on no frames, and ends with the last frame's time recorded |
| Touch.RunBracketed | client/src/useTouch.tsx:51-63 | over any frames the events are well-bracketed: no end without a start, no second start before an end, and each end carries its touch's start intersection |
| Touch.InitialRunBracketed | client/src/useTouch.tsx:26-28 | from the initial refs every run's events are well-bracketed |
| Touch.IdleRunSilent | client/src/useTouch.tsx:31-41 | frames without ready hands or mesh fire nothing and keep the touch, but still update lastTime |
| ThumbsUp.Classify | client/src/useThumbsUp.ts:21-64 | tucked iff the tip-metacarpal distance is < 0.04. Without tucking the thumb checks stay false. Pointed up and away compare against half the thumb tip-knuckle distance. Thumbs-up iff all three hold |
| ThumbsUp.ThumbsUpGeometry | client/src/useThumbsUp.ts:45-60 | in a thumbs-up the thumb tip is strictly above its knuckle and away from the index finger |
| ThumbsUp.FistIsNotThumbsUp | client/src/useThumbsUp.ts:31-34 | a thumb lying against the index finger is never a thumbs-up |
| ThumbsUp.Frame | client/src/useThumbsUp.ts:16-78 | the stored answer changes only on frames where the hands are ready |
| Params.AddExpansion | src/twitterApi.ts:141-151 | appends exactly the key to the expansions, leaves the other lists alone, keeps lists duplicate-free |
| Params.AddTweetField | src/twitterApi.ts:153-158 | appends exactly the key to the tweet fields, leaves the other lists alone, keeps lists duplicate-free |
| Params.AddUserField | src/twitterApi.ts:160-165 | appends exactly the key to the user fields, leaves the other lists alone, keeps lists duplicate-free |
| Params.AddMediaField | src/twitterApi.ts:167-172 | appends exactly the key to the media fields, leaves the other lists alone, keeps lists duplicate-free |
| Params.ToParams | src/twitterApi.ts:174-189 | the suffix is empty iff the builder is fresh |
| Params.ParamsRoundTrip | src/twitterApi.ts:176-187 | decoding the suffix gives back the builder. So each segment appears iff its list is non-empty, segments come in the order tweet.fields, user.fields, media.fields, expansions, and keys are comma-joined in insertion order |
| Params.ToParamsInjective | src/twitterApi.ts:174-188 | different builders never render the same suffix |
| Params.NamesRoundTrip | src/twitterApi.ts:8-102 | every key name parses back to its key and holds no `,`, `&` or `=` |
| Params.CustomSearchBuilder | src/twitterApi.ts:219-224 | the builder holds expansions attachments.media_keys then author_id, tweet field public_metrics, user field profile_image_url and media field preview_image_url, with no duplicates |
| Params.CustomSearchParams | src/twitterApi.ts:218-226 | that builder renders `&tweet.fields=public_metrics&user.fields=profile_image_url&media.fields=preview_image_url&expansions=attachments.media_keys,author_id` |
| Params.EndpointRoundTrip | src/twitterApi.ts:211-214 | the endpoint is the search path, the encoded query and the suffix, and splits back into the encoded query and the builder |
| Strings.Join | src/twitterApi.ts:177 | `Array.join`: the result starts with the first element, followed by the separator when more elements follow |
| Strings.SplitJoin | src/twitterApi.ts:177 | splitting a comma-join of separator-free keys gives back the keys |

## Left out

- Rendering, the scene graph, textures and profile images. Image URLs are placeholders: `DefaultTwitterImage` for the paginated card's default, and `LegacyImage` for the one texture every single-page card shows. The model keeps only which URL a card's picture comes from.
- Hand tracking and raycasting (`Raycaster`, joint positions, `distanceTo`) are replaced by inputs. Touch gets each frame's first intersection or none; thumbs-up gets the joint distances and heights.
- The hands-ready poller (client/src/HandsReady.tsx) is timer and context plumbing. Its flag is an input per frame.
- Fetching, react-query caching and page fetching, the bearer-token request, and the serverless proxy (api/searchTweets.ts) are left out. A query's state and `hasNextPage` are inputs; the `useEffect` that calls `fetchNextPage` is not modelled.
- `encodeURIComponent` is a parameter. The endpoint round trip assumes only that its output holds no `&`, which that function guarantees.
- troika's `getCaretAtPoint` is an oracle. Its result (a caret, or `None` for the throw) and the line height are inputs.
- IEEE-754 arithmetic: positions, velocities and times are exact reals, and `un(3)` is exactly 0.3.
- TrimmedText.Trimmed: lengths and cut positions are counted in Unicode code points, since Dafny strings are sequences of characters. JavaScript's `length` and `substring`, and troika's `charIndex`, count UTF-16 code units. A text with characters outside the Basic Multilingual Plane, such as emoji, is measured shorter in the model than in the source, and a cut that falls inside a surrogate pair cannot be represented. The same holds for the card copies `Cards.BodyText` and `Cards.BodySync`.
- Scroll.TouchFrame: requires `dt != 0`. JavaScript would divide by zero there and store Infinity or NaN as the velocity; frame timestamps strictly increase, so this does not arise.
- Scroll.SpringPullsBack: stated only for frame times up to 100 ms. For longer frames the source's spring overshoots past zero.
- The TypeScript type-level machinery (`IncludesObj`, the expansion-to-field mapping) is left out. The model keeps only its no-duplicate rule, which is the precondition of the builder methods, and so admits builders the typed API rejects. For example, it accepts a tweet field added after an expansion that implies it: after `.expansion("author_id")`, `.tweetField("author_id")` does not type-check (src/twitterApi.ts:145, :153), but `Params.AddTweetField` accepts it.
- The order of the touch callback and the momentum callback inside one frame is not modelled. They are separate step functions.
- The debug line and debug text of the touch and thumbs-up hooks are left out.

=== FILE: cards.dfy ===
/**
 * The tweet cards of the scrolling row: five positional slots, each keeping
 * a wrap counter, which together show an endless strip of tweets.
 * Covers the index arithmetic, the per-frame wrap step, visibility and the
 * choice of what a card displays, for both the paginated card of the client
 * and the older single-page card.
 */
module Cards {
  import opened Wrappers
  import opened Feed
  import TrimmedText

  /** `un(n)`: scene units are tenths of a metre. */
  function Units(n: real): real {
    n * 0.1
  }

  const NumTweetsInRow: int := 5
  const TweetCardWidth: real := Units(3.0)
  const RowWidth: real := NumTweetsInRow as real * TweetCardWidth
  /** Half a row plus a quarter card, so that a card cannot wrap straight back. */
  const WrapThreshold: real := RowWidth / 2.0 + TweetCardWidth / 4.0

  /** The clip bottom of a card's body text, `un(-tweetBodyHeight)`. */
  const BodyClipBottom: real := Units(-1.8)

  lemma ConstantValues()
    ensures TweetCardWidth == 0.3 && RowWidth == 1.5 && WrapThreshold == 0.825
    ensures BodyClipBottom == -0.18
    ensures 2.0 * WrapThreshold > RowWidth
  {
  }

  // ---------------------------------------------------------------------
  // Index arithmetic
  // ---------------------------------------------------------------------

  /** A card slot: `objectIndex` ranges over the five cards of the row. */
  predicate IsSlot(objectIndex: int) {
    0 <= objectIndex < NumTweetsInRow
  }

  /** `objectIndex + numWraps * numTweetsInRow`: the virtual index a card shows. */
  function TweetIndex(objectIndex: int, numWraps: int): (r: int)
    ensures IsSlot(objectIndex) ==> r % NumTweetsInRow == objectIndex && r / NumTweetsInRow == numWraps
  {
    objectIndex + numWraps * NumTweetsInRow
  }

  /** The card slot and wrap count that show a virtual index. */
  function SlotOf(index: int): (r: (int, int))
    ensures IsSlot(r.0)
  {
    (index % NumTweetsInRow, index / NumTweetsInRow)
  }

  /** Every virtual index is shown by the card `SlotOf` names, and by no other. */
  lemma SlotOfShows(index: int)
    ensures TweetIndex(SlotOf(index).0, SlotOf(index).1) == index
    ensures forall o, w :: IsSlot(o) && TweetIndex(o, w) == index ==> (o, w) == SlotOf(index)
  {
    forall o, w | IsSlot(o) && TweetIndex(o, w) == index
      ensures (o, w) == SlotOf(index)
    {
      TweetIndexInjective(o, w, SlotOf(index).0, SlotOf(index).1);
    }
  }

  /** A slot and wrap count are recovered from the index they show. */
  lemma SlotOfRecovers(objectIndex: int, numWraps: int)
    requires IsSlot(objectIndex)
    ensures SlotOf(TweetIndex(objectIndex, numWraps)) == (objectIndex, numWraps)
  {
    var i := TweetIndex(objectIndex, numWraps);
    var q, r := i / NumTweetsInRow, i % NumTweetsInRow;
    assert i == q * NumTweetsInRow + r;
    assert (q - numWraps) * NumTweetsInRow == objectIndex - r;
  }

  /** No two (slot, wrap count) pairs show the same tweet. */
  lemma TweetIndexInjective(o1: int, w1: int, o2: int, w2: int)
    requires IsSlot(o1) && IsSlot(o2)
    requires TweetIndex(o1, w1) == TweetIndex(o2, w2)
    ensures o1 == o2 && w1 == w2
  {
    SlotOfRecovers(o1, w1);
    SlotOfRecovers(o2, w2);
  }

  // ---------------------------------------------------------------------
  // Wrapping
  // ---------------------------------------------------------------------

  /** `objectIndex * tweetCardWidth + numWraps * rowWidth`: a card's x inside the scrolled group. */
  function OwnPosition(objectIndex: int, numWraps: int): (r: real)
    ensures r == TweetIndex(objectIndex, numWraps) as real * TweetCardWidth
  {
    objectIndex as real * TweetCardWidth + numWraps as real * RowWidth
  }

  /** The wrap step for a given threshold; the cards use `WrapThreshold`. */
  function WrapStepWith(threshold: real, parentX: real, objectIndex: int, numWraps: int): (r: int)
    ensures r == numWraps - 1 <==> parentX + OwnPosition(objectIndex, numWraps) > threshold
    ensures r == numWraps + 1 <==>
      (parentX + OwnPosition(objectIndex, numWraps) < -threshold
       && parentX + OwnPosition(objectIndex, numWraps) <= threshold)
    ensures numWraps - 1 <= r <= numWraps + 1
  {
    var relative := parentX + OwnPosition(objectIndex, numWraps);
    if relative > threshold then numWraps - 1
    else if relative < -threshold then numWraps + 1
    else numWraps
  }

  /**
   * The per-frame wrap of a card: a card further right than the threshold
   * (relative to the row) moves one row to the left, one further left than
   * minus the threshold one row to the right.
   */
  function WrapStep(parentX: real, objectIndex: int, numWraps: int): (r: int)
    ensures r == numWraps - 1 <==> parentX + OwnPosition(objectIndex, numWraps) > WrapThreshold
    ensures r == numWraps + 1 <==> parentX + OwnPosition(objectIndex, numWraps) < -WrapThreshold
    ensures r == numWraps <==> -WrapThreshold <= parentX + OwnPosition(objectIndex, numWraps) <= WrapThreshold
  {
    WrapStepWith(WrapThreshold, parentX, objectIndex, numWraps)
  }

  /**
   * A wrap moves the card by exactly one row width, and always towards the
   * row: a card right of the threshold moves left, one left of minus the
   * threshold moves right, and either way its relative position ends up
   * closer to 0 than it was (the threshold exceeds half a row).
   */
  lemma WrapMovesOneRow(parentX: real, objectIndex: int, numWraps: int)
    ensures var r := WrapStep(parentX, objectIndex, numWraps);
      var before := parentX + OwnPosition(objectIndex, numWraps);
      var after := parentX + OwnPosition(objectIndex, r);
      && (r == numWraps - 1 ==> after == before - RowWidth && after < before)
      && (r == numWraps + 1 ==> after == before + RowWidth && after > before)
      && (r != numWraps ==> after * after < before * before)
  {
    var r := WrapStep(parentX, objectIndex, numWraps);
    var before := parentX + OwnPosition(objectIndex, numWraps);
    if r == numWraps - 1 {
      assert before > WrapThreshold;
      assert OwnPosition(objectIndex, r) == OwnPosition(objectIndex, numWraps) - RowWidth;
      assert (before - RowWidth) * (before - RowWidth) == before * before - RowWidth * (2.0 * before - RowWidth);
    } else if r == numWraps + 1 {
      assert before < -WrapThreshold;
      assert OwnPosition(objectIndex, r) == OwnPosition(objectIndex, numWraps) + RowWidth;
      assert (before + RowWidth) * (before + RowWidth) == before * before - RowWidth * (-2.0 * before - RowWidth);
    }
  }

  /** Whether the step, repeated with the parent held still, ever undoes a wrap. */
  predicate Reverses(threshold: real, parentX: real, objectIndex: int, numWraps: int) {
    var w1 := WrapStepWith(threshold, parentX, objectIndex, numWraps);
    w1 != numWraps && WrapStepWith(threshold, parentX, objectIndex, w1) == numWraps
  }

  /** A threshold of at least half a row never lets a card wrap straight back. */
  lemma NoReversalAboveHalfRow(threshold: real, parentX: real, objectIndex: int, numWraps: int)
    requires 2.0 * threshold >= RowWidth
    ensures !Reverses(threshold, parentX, objectIndex, numWraps)
  {
    var rel := parentX + OwnPosition(objectIndex, numWraps);
    assert OwnPosition(objectIndex, numWraps - 1) == OwnPosition(objectIndex, numWraps) - RowWidth;
    assert OwnPosition(objectIndex, numWraps + 1) == OwnPosition(objectIndex, numWraps) + RowWidth;
  }

  /** A threshold below half a row lets a card at the middle of the row wrap back and forth. */
  lemma ReversalBelowHalfRow(threshold: real, objectIndex: int, numWraps: int)
    requires 0.0 <= threshold && 2.0 * threshold < RowWidth
    ensures Reverses(threshold, RowWidth / 2.0 - OwnPosition(objectIndex, numWraps), objectIndex, numWraps)
  {
    assert OwnPosition(objectIndex, numWraps - 1) == OwnPosition(objectIndex, numWraps) - RowWidth;
  }

  /** The cards' own threshold is of the safe kind. */
  lemma WrapNeverReverses(parentX: real, objectIndex: int, numWraps: int)
    ensures var w1 := WrapStep(parentX, objectIndex, numWraps);
      w1 != numWraps ==> WrapStep(parentX, objectIndex, w1) != numWraps
  {
    NoReversalAboveHalfRow(WrapThreshold, parentX, objectIndex, numWraps);
  }

  // ---------------------------------------------------------------------
  // What a card shows
  // ---------------------------------------------------------------------

  /** The card's content: display name, handle, body, profile image and whether it is hidden. */
  datatype Content = Content(displayName: string, handle: string, body: string, image: string, hidden: bool)

  const DefaultTwitterImage: string := "default-profile-image"
  /** The single profile picture of the older card. */
  const LegacyImage: string := "legacy-profile-image"

  function ErrorContent(error: string, image: string): Content {
    Content("Error!", "error", error, image, false)
  }

  function LoadingContent(image: string): Content {
    Content("Loading...", "Loading", "Loading...", image, false)
  }

  function HiddenContent(image: string): Content {
    Content("", "", "", image, true)
  }

  /** A found tweet with its author, falling back to placeholders when the author is missing. */
  function TweetContent(tweet: Tweet, user: Option<User>, image: string): (r: Content)
    ensures !r.hidden && r.body == tweet.text
    ensures user.Some? ==> r.displayName == user.value.name && r.handle == user.value.username
    ensures user.None? ==> r.displayName == "User not found" && r.handle == "user_not_found" && r.image == image
    ensures user.Some? && user.value.profileImageUrl.Some? ==> r.image == user.value.profileImageUrl.value
    ensures user.Some? && user.value.profileImageUrl.None? ==> r.image == image
  {
    match user
    case Some(u) => Content(u.name, u.username, tweet.text, u.profileImageUrl.GetOr(image), false)
    case None => Content("User not found", "user_not_found", tweet.text, image, false)
  }

  /** `outOfBounds && hasNextPage`: the tweet may be on a page not fetched yet. */
  predicate MightBeOnNotYetLoadedPage(lookup: Lookup, hasNextPage: bool) {
    lookup.OutOfBounds? && hasNextPage
  }

  /**
   * The paginated card's choice, in priority order: error, loading (query
   * unsettled or tweet possibly on an unfetched page), found tweet, hidden.
   */
  function Select(q: Query<seq<Page>>, hasNextPage: bool, lookup: Lookup): (r: Content)
    ensures q.Failed? ==> r == ErrorContent(q.error, DefaultTwitterImage)
    ensures !q.Failed? && (!q.Success? || MightBeOnNotYetLoadedPage(lookup, hasNextPage))
      ==> r == LoadingContent(DefaultTwitterImage)
    ensures r.hidden <==> q.Success? && !lookup.FoundTweet? && !MightBeOnNotYetLoadedPage(lookup, hasNextPage)
    ensures r.hidden ==> r == HiddenContent(DefaultTwitterImage)
    ensures q.Success? && lookup.FoundTweet? ==> r == TweetContent(lookup.tweet, lookup.user, DefaultTwitterImage)
  {
    if q.Failed? then ErrorContent(q.error, DefaultTwitterImage)
    else if !q.Success? || MightBeOnNotYetLoadedPage(lookup, hasNextPage) then LoadingContent(DefaultTwitterImage)
    else if lookup.FoundTweet? then TweetContent(lookup.tweet, lookup.user, DefaultTwitterImage)
    else HiddenContent(DefaultTwitterImage)
  }

  /** The paginated card: its tweet index, looked up, then selected. */
  function CardContent(q: Query<seq<Page>>, hasNextPage: bool, objectIndex: int, numWraps: int): (r: Content)
    ensures q.Failed? ==> r == ErrorContent(q.error, DefaultTwitterImage)
    ensures q.Loading? ==> r == LoadingContent(DefaultTwitterImage)
    ensures r.hidden ==> q.Success? && !(0 <= TweetIndex(objectIndex, numWraps) < TotalLength(q.data))
  {
    var i := TweetIndex(objectIndex, numWraps);
    if q.Success? && 0 <= i < TotalLength(q.data) then
      GetTweetFound(q.data, i);
      Select(q, hasNextPage, GetTweet(q, i))
    else
      Select(q, hasNextPage, GetTweet(q, i))
  }

  /** A card whose index is on a loaded page shows that tweet of the feed. */
  lemma CardShowsFeedTweet(pages: seq<Page>, hasNextPage: bool, objectIndex: int, numWraps: int)
    requires 0 <= TweetIndex(objectIndex, numWraps) < TotalLength(pages)
    ensures !CardContent(Success(pages), hasNextPage, objectIndex, numWraps).hidden
    ensures CardContent(Success(pages), hasNextPage, objectIndex, numWraps).body
         == Flatten(pages)[TweetIndex(objectIndex, numWraps)].text
  {
    GetTweetFound(pages, TweetIndex(objectIndex, numWraps));
  }

  /** Past the loaded pages a card waits while more pages exist and hides once none do. */
  lemma CardPastLoadedPages(pages: seq<Page>, hasNextPage: bool, objectIndex: int, numWraps: int)
    requires TweetIndex(objectIndex, numWraps) >= TotalLength(pages)
    ensures hasNextPage ==> CardContent(Success(pages), hasNextPage, objectIndex, numWraps) == LoadingContent(DefaultTwitterImage)
    ensures !hasNextPage ==> CardContent(Success(pages), hasNextPage, objectIndex, numWraps) == HiddenContent(DefaultTwitterImage)
  {
    GetTweetPastEnd(pages, TweetIndex(objectIndex, numWraps));
  }

  /**
   * The older card: one page of results, indexed directly; an index outside
   * the page (negative included) finds no tweet and hides the card. It
   * never reads the author's profile picture: every card shows the one
   * texture loaded up front.
   */
  function SelectLegacy(q: Query<Page>, objectIndex: int, numWraps: int): (r: Content)
    ensures r.image == LegacyImage
    ensures q.Failed? ==> r == ErrorContent(q.error, LegacyImage)
    ensures !q.Failed? && !q.Success? ==> r == LoadingContent(LegacyImage)
    ensures r.hidden <==> q.Success? && !(0 <= TweetIndex(objectIndex, numWraps) < |q.data.data|)
    ensures r.hidden ==> r == HiddenContent(LegacyImage)
    ensures q.Success? && 0 <= TweetIndex(objectIndex, numWraps) < |q.data.data| ==>
      var tweet := q.data.data[TweetIndex(objectIndex, numWraps)];
      var user := FindUser(q.data.users, tweet.authorId);
      && r.body == tweet.text
      && (user.Some? ==> r.displayName == user.value.name && r.handle == user.value.username)
      && (user.None? ==> r.displayName == "User not found" && r.handle == "user_not_found")
  {
    if q.Failed? then ErrorContent(q.error, LegacyImage)
    else if !q.Success? then LoadingContent(LegacyImage)
    else
      var tweetIndex := TweetIndex(objectIndex, numWraps);
      if 0 <= tweetIndex < |q.data.data| then
        var tweet := q.data.data[tweetIndex];
        WithLegacyImage(TweetContent(tweet, FindUser(q.data.users, tweet.authorId), LegacyImage))
      else HiddenContent(LegacyImage)
  }

  /** The legacy texture in place of whatever picture a card would show. */
  function WithLegacyImage(c: Content): Content {
    c.(image := LegacyImage)
  }

  /**
   * With a single page and nothing more to fetch, the paginated card shows
   * what the older card showed, apart from the profile picture, which the
   * older card never loaded.
   */
  lemma PaginatedGeneralisesLegacy(q: Query<Page>, objectIndex: int, numWraps: int)
    ensures var paged := match q
        case Loading => Loading
        case Failed(e) => Failed(e)
        case Success(page) => Success([page]);
      WithLegacyImage(CardContent(paged, false, objectIndex, numWraps))
        == SelectLegacy(q, objectIndex, numWraps)
  {
    if q.Success? {
      var pages := [q.data];
      var i := TweetIndex(objectIndex, numWraps);
      assert pages[..0] == [];
      assert TotalLength(pages) == |q.data.data| by {
        assert pages[1..] == [];
      }
      if 0 <= i < |q.data.data| {
        ScanFound(pages, i, 0, 0, i);
      } else if i >= |q.data.data| {
        GetTweetPastEnd(pages, i);
      }
    }
  }

  /** `visible={numWraps >= 0 && !hidden}`. */
  predicate Visible(numWraps: int, c: Content) {
    numWraps >= 0 && !c.hidden
  }

  /**
   * Once results are in, a card is visible exactly when it has not wrapped
   * left of the start and its tweet is loaded or may still be fetched.
   */
  lemma CardVisibility(pages: seq<Page>, hasNextPage: bool, objectIndex: int, numWraps: int)
    requires IsSlot(objectIndex)
    ensures Visible(numWraps, CardContent(Success(pages), hasNextPage, objectIndex, numWraps))
        <==> numWraps >= 0 && (hasNextPage || TweetIndex(objectIndex, numWraps) < TotalLength(pages))
  {
    var i := TweetIndex(objectIndex, numWraps);
    if numWraps >= 0 {
      if i < TotalLength(pages) {
        GetTweetFound(pages, i);
      } else {
        GetTweetPastEnd(pages, i);
      }
    }
  }

  /** The older card's visibility: not wrapped left of the start, and its index inside the page. */
  lemma LegacyVisibility(page: Page, objectIndex: int, numWraps: int)
    requires IsSlot(objectIndex)
    ensures Visible(numWraps, SelectLegacy(Success(page), objectIndex, numWraps))
        <==> numWraps >= 0 && TweetIndex(objectIndex, numWraps) < |page.data|
  {
  }

  /** The body line of a card: its body trimmed at the last synced cut. */
  function BodyText(c: Content, st: TrimmedText.TrimState): (r: string)
    ensures |r| <= |c.body| && r == c.body[..|r|]
    ensures st.lastChecked != Some(c.body) ==> r == c.body
    ensures !TrimmedText.TooLong(c.body, st) ==> r == c.body
    ensures TrimmedText.TooLong(c.body, st) ==>
      && |r| <= st.endPosition.index
      && (r == [] || !TrimmedText.IsWhitespace(r[|r| - 1]))
      && forall k :: |r| <= k < st.endPosition.index ==> TrimmedText.IsWhitespace(c.body[k])
  {
    TrimmedText.Trimmed(c.body, st)
  }

  /** The card's body sync, with the caret probed at the clip bottom of the body. */
  function BodySync(c: Content, st: TrimmedText.TrimState, caret: Option<TrimmedText.Caret>, lineHeight: real)
    : (r: TrimmedText.TrimState)
    ensures r.lastChecked == Some(c.body)
    ensures st.lastChecked != Some(c.body) ==>
      (r.endPosition.At? <==> caret.Some? && caret.value.y - lineHeight < -0.18)
    ensures st.lastChecked == Some(c.body) ==> r == st
    ensures st.lastChecked != Some(c.body) && r.endPosition.At? ==> r.endPosition.index == caret.value.charIndex
  {
    TrimmedText.Sync(c.body, st, caret, lineHeight, BodyClipBottom)
  }
}

=== FILE: feed.dfy ===
/**
 * The search results as the client sees them, and `getTweet`, which maps a
 * flat "virtual index" onto the list of result pages loaded so far.
 */
module Feed {
  import opened Wrappers

  datatype Tweet = Tweet(id: string, text: string, authorId: string)

  datatype User = User(id: string, name: string, username: string, profileImageUrl: Option<string>)

  /** One page of search results: its tweets and the users it includes. */
  datatype Page = Page(data: seq<Tweet>, users: seq<User>)

  /** A react-query result: not yet settled, failed with a message, or holding data. */
  datatype Query<T> = Loading | Failed(error: string) | Success(data: T)

  /** What `getTweet` hands back; `Null` is its `null`, `LogicError` its throw. */
  datatype Lookup =
    | Null
    | FoundTweet(tweet: Tweet, user: Option<User>)
    | OutOfBounds
    | LogicError

  /** `users[k]` is the first user whose id is `authorId`. */
  predicate FirstWithId(users: seq<User>, k: int, authorId: string) {
    && 0 <= k < |users|
    && users[k].id == authorId
    && forall j :: 0 <= j < k ==> users[j].id != authorId
  }

  /** No user of `users` has id `authorId`. */
  ghost predicate NoUserWithId(users: seq<User>, authorId: string) {
    forall k :: 0 <= k < |users| ==> users[k].id != authorId
  }

  /** `u` is the first user of `users` whose id is `authorId`. */
  ghost predicate FoundFirst(users: seq<User>, authorId: string, u: User) {
    exists k :: FirstWithId(users, k, authorId) && users[k] == u
  }

  /** `users.find(usr => usr.id === authorId)`. */
  function FindUser(users: seq<User>, authorId: string): (r: Option<User>)
    ensures r.None? <==> NoUserWithId(users, authorId)
    ensures r.Some? ==> FoundFirst(users, authorId, r.value)
  {
    if |users| == 0 then None
    else if users[0].id == authorId then
      assert FirstWithId(users, 0, authorId);
      Some(users[0])
    else
      var r := FindUser(users[1..], authorId);
      FindUserShift(users, authorId, r);
      r
  }

  /** A match in `users[1..]` is a match in `users` once `users[0]` is ruled out. */
  lemma FindUserShift(users: seq<User>, authorId: string, r: Option<User>)
    requires |users| > 0 && users[0].id != authorId
    requires r.None? <==> NoUserWithId(users[1..], authorId)
    requires r.Some? ==> FoundFirst(users[1..], authorId, r.value)
    ensures r.None? <==> NoUserWithId(users, authorId)
    ensures r.Some? ==> FoundFirst(users, authorId, r.value)
  {
    if r.Some? {
      var k :| FirstWithId(users[1..], k, authorId) && users[1..][k] == r.value;
      assert FirstWithId(users, k + 1, authorId);
    } else {
      assert forall k :: 0 < k < |users| ==> users[k] == users[1..][k - 1];
    }
  }

  /** Total number of tweets on a list of pages. */
  function TotalLength(pages: seq<Page>): nat {
    if pages == [] then 0 else |pages[0].data| + TotalLength(pages[1..])
  }

  /** The virtual index of the first tweet of page `p`. */
  function Offset(pages: seq<Page>, p: nat): nat
    requires p <= |pages|
  {
    TotalLength(pages[..p])
  }

  /** All tweets of all pages, in page order. */
  function Flatten(pages: seq<Page>): (r: seq<Tweet>)
    ensures |r| == TotalLength(pages)
  {
    if pages == [] then [] else pages[0].data + Flatten(pages[1..])
  }

  /** `t` is one of the tweets of `pages`. */
  ghost predicate InFeed(pages: seq<Page>, t: Tweet) {
    t in Flatten(pages)
  }

  /**
   * The `for (const page of pages)` loop of `getTweet`, over the pages not yet
   * visited; `prev` is `totalPrevIndices`, the length of the visited ones.
   */
  function Scan(rest: seq<Page>, index: int, prev: int): (r: Lookup)
    ensures r.Null? ==> index < prev
    ensures r.FoundTweet? ==> InFeed(rest, r.tweet)
  {
    if rest == [] then OutOfBounds
    else
      var page := rest[0];
      if index - prev < |page.data| then
        // `page.data[index - prev]` is undefined for a negative position
        if index - prev < 0 then Null
        else
          var tweet := page.data[index - prev];
          FoundTweet(tweet, FindUser(page.users, tweet.authorId))
      else if prev > index then LogicError
      else Scan(rest[1..], index, prev + |page.data|)
  }

  /** `getTweet(tweets, index)`. */
  function GetTweet(q: Query<seq<Page>>, index: int): (r: Lookup)
    ensures !q.Success? ==> r == Null
    ensures r != LogicError
  {
    if !q.Success? then Null
    else
      ScanNeverFails(q.data, index, 0);
      Scan(q.data, index, 0)
  }

  /** The throw marked "logic error" is unreachable, whatever the index. */
  lemma {:induction false} ScanNeverFails(rest: seq<Page>, index: int, prev: int)
    ensures Scan(rest, index, prev) != LogicError
  {
    if rest != [] && index - prev >= |rest[0].data| {
      ScanNeverFails(rest[1..], index, prev + |rest[0].data|);
    }
  }

  lemma OffsetStep(pages: seq<Page>, p: nat)
    requires 0 < p <= |pages|
    ensures Offset(pages, p) == |pages[0].data| + Offset(pages[1..], p - 1)
  {
    assert pages[..p][1..] == pages[1..][..p - 1];
  }

  lemma {:induction false} OffsetBound(pages: seq<Page>, p: nat)
    requires p < |pages|
    ensures Offset(pages, p) + |pages[p].data| <= TotalLength(pages)
  {
    if p > 0 {
      OffsetStep(pages, p);
      OffsetBound(pages[1..], p - 1);
    }
  }

  /** Tweet `i` of page `p` sits at virtual index `Offset(pages, p) + i` of the flattened feed. */
  lemma {:induction false} FlattenIndex(pages: seq<Page>, p: nat, i: nat)
    requires p < |pages| && i < |pages[p].data|
    ensures Offset(pages, p) + i < |Flatten(pages)|
    ensures Flatten(pages)[Offset(pages, p) + i] == pages[p].data[i]
  {
    OffsetBound(pages, p);
    if p > 0 {
      OffsetStep(pages, p);
      FlattenIndex(pages[1..], p - 1, i);
    }
  }

  lemma {:induction false} ScanFound(rest: seq<Page>, index: int, prev: int, p: nat, i: nat)
    requires p < |rest| && i < |rest[p].data|
    requires index == prev + Offset(rest, p) + i
    ensures Scan(rest, index, prev) == FoundTweet(rest[p].data[i], FindUser(rest[p].users, rest[p].data[i].authorId))
  {
    if p == 0 {
      assert rest[..0] == [];
      ScanHit(rest, index, prev);
    } else {
      ScanFoundStep(rest, index, prev, p, i);
      ScanFound(rest[1..], index, prev + |rest[0].data|, p - 1, i);
      ScanFoundLater(rest, index, prev, p, i);
    }
  }

  /** The step of `ScanFound`: what the rest of the pages find, the whole list finds. */
  lemma ScanFoundLater(rest: seq<Page>, index: int, prev: int, p: nat, i: nat)
    requires 0 < p < |rest| && i < |rest[p].data|
    requires index - prev >= |rest[0].data|
    requires Scan(rest[1..], index, prev + |rest[0].data|)
          == FoundTweet(rest[p].data[i], FindUser(rest[p].users, rest[p].data[i].authorId))
    ensures Scan(rest, index, prev) == FoundTweet(rest[p].data[i], FindUser(rest[p].users, rest[p].data[i].authorId))
  {
    ScanSkip(rest, index, prev);
  }

  /** Position `i` of page `p > 0` of `rest` is position `i` of page `p - 1` of `rest[1..]`, past page 0. */
  lemma ScanFoundStep(rest: seq<Page>, index: int, prev: int, p: nat, i: nat)
    requires 0 < p < |rest| && i < |rest[p].data|
    requires index == prev + Offset(rest, p) + i
    ensures index - prev >= |rest[0].data|
    ensures index == prev + |rest[0].data| + Offset(rest[1..], p - 1) + i
  {
    OffsetStep(rest, p);
  }

  /** A position on the first remaining page finds its tweet there. */
  lemma ScanHit(rest: seq<Page>, index: int, prev: int)
    requires rest != [] && 0 <= index - prev < |rest[0].data|
    ensures Scan(rest, index, prev)
         == FoundTweet(rest[0].data[index - prev], FindUser(rest[0].users, rest[0].data[index - prev].authorId))
  {
  }

  /** A position past the first remaining page moves on to the next one. */
  lemma ScanSkip(rest: seq<Page>, index: int, prev: int)
    requires rest != [] && index - prev >= |rest[0].data|
    ensures Scan(rest, index, prev) == Scan(rest[1..], index, prev + |rest[0].data|)
  {
  }

  lemma {:induction false} ScanPastEnd(rest: seq<Page>, index: int, prev: int)
    requires index >= prev + TotalLength(rest)
    ensures Scan(rest, index, prev) == OutOfBounds
  {
    if rest != [] {
      ScanPastEnd(rest[1..], index, prev + |rest[0].data|);
    }
  }

  /** Every in-range virtual index lies at some position of some page. */
  lemma {:induction false} Locate(pages: seq<Page>, index: int) returns (p: nat, i: nat)
    requires 0 <= index < TotalLength(pages)
    ensures p < |pages| && i < |pages[p].data|
    ensures index == Offset(pages, p) + i
  {
    if index < |pages[0].data| {
      p, i := 0, index;
      assert pages[..0] == [];
    } else {
      var p', i' := Locate(pages[1..], index - |pages[0].data|);
      p, i := p' + 1, i';
      OffsetStep(pages, p);
    }
  }

  /**
   * Inside the loaded pages, `getTweet` finds element `index` of the
   * concatenated pages, with the first user of ITS page whose id is the
   * tweet's author.
   */
  lemma GetTweetInRange(pages: seq<Page>, index: int, p: nat, i: nat)
    requires p < |pages| && i < |pages[p].data|
    requires index == Offset(pages, p) + i
    ensures 0 <= index < TotalLength(pages)
    ensures GetTweet(Success(pages), index)
         == FoundTweet(Flatten(pages)[index], FindUser(pages[p].users, Flatten(pages)[index].authorId))
  {
    FlattenIndex(pages, p, i);
    ScanFound(pages, index, 0, p, i);
  }

  /** Every index inside the loaded pages is found. */
  lemma GetTweetFound(pages: seq<Page>, index: int)
    requires 0 <= index < TotalLength(pages)
    ensures GetTweet(Success(pages), index).FoundTweet?
    ensures GetTweet(Success(pages), index).tweet == Flatten(pages)[index]
  {
    var p, i := Locate(pages, index);
    GetTweetInRange(pages, index, p, i);
  }

  /** Past the loaded pages `getTweet` reports `outOfBounds`. */
  lemma GetTweetPastEnd(pages: seq<Page>, index: int)
    requires index >= TotalLength(pages)
    ensures GetTweet(Success(pages), index) == OutOfBounds
  {
    ScanPastEnd(pages, index, 0);
  }

  /** A negative index yields `null` once a page is loaded, `outOfBounds` before. */
  lemma GetTweetNegative(pages: seq<Page>, index: int)
    requires index < 0
    ensures GetTweet(Success(pages), index) == if pages == [] then OutOfBounds else Null
  {
  }
}

=== FILE: params.dfy ===
/**
 * The search request builder of the Twitter client: four append-only key
 * lists (expansions, tweet fields, user fields, media fields) rendered as the
 * query-string suffix of the recent-search endpoint.
 *
 * Besides the renderer, the module holds a decoder for the rendered suffix;
 * the round trip between the two is what pins the rendering down: order,
 * separators, presence of each segment and the contents of each list.
 */
module Params {
  import opened Wrappers
  import opened Strings

  /** The expansion keys of the search endpoint. */
  datatype TweetExpansion =
    | ExpandAuthorId
    | ExpandReferencedTweetsId
    | ExpandInReplyToUserId
    | ExpandAttachmentsMediaKeys
    | ExpandMentionsUsername
    | ExpandReferencedTweetsAuthorId

  /** The optional tweet fields. */
  datatype TweetField =
    | Attachments | AuthorId | ConversationId | TweetCreatedAt | TweetEntities
    | InReplyToUserId | Lang | ReferencedTweets | TweetPublicMetrics

  /** The optional user fields. */
  datatype UserField =
    | UserCreatedAt | Description | UserEntities | Location | PinnedTweetId
    | ProfileImageUrl | Protected | UserPublicMetrics | Url | Verified

  /** The optional media fields. */
  datatype MediaField =
    | DurationMs | Height | Width | PreviewImageUrl | MediaPublicMetrics | AltText

  function ExpansionName(k: TweetExpansion): string {
    match k
    case ExpandAuthorId => "author_id"
    case ExpandReferencedTweetsId => "referenced_tweets.id"
    case ExpandInReplyToUserId => "in_reply_to_user.id"
    case ExpandAttachmentsMediaKeys => "attachments.media_keys"
    case ExpandMentionsUsername => "entities.mentions.username"
    case ExpandReferencedTweetsAuthorId => "referenced_tweets.id.author_id"
  }

  function TweetFieldName(k: TweetField): string {
    match k
    case Attachments => "attachments"
    case AuthorId => "author_id"
    case ConversationId => "conversation_id"
    case TweetCreatedAt => "created_at"
    case TweetEntities => "entities"
    case InReplyToUserId => "in_reply_to_user_id"
    case Lang => "lang"
    case ReferencedTweets => "referenced_tweets"
    case TweetPublicMetrics => "public_metrics"
  }

  function UserFieldName(k: UserField): string {
    match k
    case UserCreatedAt => "created_at"
    case Description => "description"
    case UserEntities => "entities"
    case Location => "location"
    case PinnedTweetId => "pinned_tweet_id"
    case ProfileImageUrl => "profile_image_url"
    case Protected => "protected"
    case UserPublicMetrics => "public_metrics"
    case Url => "url"
    case Verified => "verified"
  }

  function MediaFieldName(k: MediaField): string {
    match k
    case DurationMs => "duration_ms"
    case Height => "height"
    case Width => "width"
    case PreviewImageUrl => "preview_image_url"
    case MediaPublicMetrics => "public_metrics"
    case AltText => "alt_text"
  }

  /** The inverse of `ExpansionName`. */
  function ParseExpansion(s: string): (r: Option<TweetExpansion>)
    ensures r.Some? ==> ExpansionName(r.value) == s
  {
    if s == "author_id" then Some(ExpandAuthorId)
    else if s == "referenced_tweets.id" then Some(ExpandReferencedTweetsId)
    else if s == "in_reply_to_user.id" then Some(ExpandInReplyToUserId)
    else if s == "attachments.media_keys" then Some(ExpandAttachmentsMediaKeys)
    else if s == "entities.mentions.username" then Some(ExpandMentionsUsername)
    else if s == "referenced_tweets.id.author_id" then Some(ExpandReferencedTweetsAuthorId)
    else None
  }

  /** The inverse of `TweetFieldName`. */
  function ParseTweetField(s: string): (r: Option<TweetField>)
    ensures r.Some? ==> TweetFieldName(r.value) == s
  {
    if s == "attachments" then Some(Attachments)
    else if s == "author_id" then Some(AuthorId)
    else if s == "conversation_id" then Some(ConversationId)
    else if s == "created_at" then Some(TweetCreatedAt)
    else if s == "entities" then Some(TweetEntities)
    else if s == "in_reply_to_user_id" then Some(InReplyToUserId)
    else if s == "lang" then Some(Lang)
    else if s == "referenced_tweets" then Some(ReferencedTweets)
    else if s == "public_metrics" then Some(TweetPublicMetrics)
    else None
  }

  /** The inverse of `UserFieldName`. */
  function ParseUserField(s: string): (r: Option<UserField>)
    ensures r.Some? ==> UserFieldName(r.value) == s
  {
    if s == "created_at" then Some(UserCreatedAt)
    else if s == "description" then Some(Description)
    else if s == "entities" then Some(UserEntities)
    else if s == "location" then Some(Location)
    else if s == "pinned_tweet_id" then Some(PinnedTweetId)
    else if s == "profile_image_url" then Some(ProfileImageUrl)
    else if s == "protected" then Some(Protected)
    else if s == "public_metrics" then Some(UserPublicMetrics)
    else if s == "url" then Some(Url)
    else if s == "verified" then Some(Verified)
    else None
  }

  /** The inverse of `MediaFieldName`. */
  function ParseMediaField(s: string): (r: Option<MediaField>)
    ensures r.Some? ==> MediaFieldName(r.value) == s
  {
    if s == "duration_ms" then Some(DurationMs)
    else if s == "height" then Some(Height)
    else if s == "width" then Some(Width)
    else if s == "preview_image_url" then Some(PreviewImageUrl)
    else if s == "public_metrics" then Some(MediaPublicMetrics)
    else if s == "alt_text" then Some(AltText)
    else None
  }

  /** Key names use lower-case letters, `_` and `.` only. */
  predicate KeyChar(c: char) {
    'a' <= c <= 'z' || c == '_' || c == '.'
  }

  predicate KeyName(s: string) {
    forall c :: c in s ==> KeyChar(c)
  }

  /** So no key name contains a character the query string uses as a separator. */
  lemma KeyNameIsPlain(s: string)
    requires KeyName(s)
    ensures ',' !in s && '&' !in s && '=' !in s
  {
  }

  lemma ExpansionNamesRoundTrip(k: TweetExpansion)
    ensures ParseExpansion(ExpansionName(k)) == Some(k)
    ensures KeyName(ExpansionName(k))
  {
    ExpansionNameParses(k);
    ExpansionNameIsKey(k);
  }

  lemma ExpansionNameParses(k: TweetExpansion)
    ensures ParseExpansion(ExpansionName(k)) == Some(k)
  {
  }

  lemma ExpansionNameIsKey(k: TweetExpansion)
    ensures KeyName(ExpansionName(k))
  {
    match k
    case ExpandAuthorId =>
    case ExpandReferencedTweetsId =>
    case ExpandInReplyToUserId =>
    case ExpandAttachmentsMediaKeys =>
    case ExpandMentionsUsername => LongKeyNames();
    case ExpandReferencedTweetsAuthorId => LongKeyNames();
  }

  lemma LongKeyNames()
    ensures KeyName("entities.mentions.username")
    ensures KeyName("referenced_tweets.id.author_id")
  {
    MentionsUsernameIsKey();
  }

  lemma MentionsUsernameIsKey()
    ensures KeyName("entities.mentions.username")
  {
  }

  lemma TweetFieldNamesRoundTrip(k: TweetField)
    ensures ParseTweetField(TweetFieldName(k)) == Some(k)
    ensures KeyName(TweetFieldName(k))
  {
    TweetFieldNameParses(k);
    TweetFieldNameIsKey(k);
  }

  lemma TweetFieldNameParses(k: TweetField)
    ensures ParseTweetField(TweetFieldName(k)) == Some(k)
  {
  }

  lemma TweetFieldNameIsKey(k: TweetField)
    ensures KeyName(TweetFieldName(k))
  {
  }

  lemma UserFieldNamesRoundTrip(k: UserField)
    ensures ParseUserField(UserFieldName(k)) == Some(k)
    ensures KeyName(UserFieldName(k))
  {
    UserFieldNameParses(k);
    UserFieldNameIsKey(k);
  }

  lemma UserFieldNameParses(k: UserField)
    ensures ParseUserField(UserFieldName(k)) == Some(k)
  {
  }

  lemma UserFieldNameIsKey(k: UserField)
    ensures KeyName(UserFieldName(k))
  {
  }

  lemma MediaFieldNamesRoundTrip(k: MediaField)
    ensures ParseMediaField(MediaFieldName(k)) == Some(k)
    ensures KeyName(MediaFieldName(k))
  {
    MediaFieldNameParses(k);
    MediaFieldNameIsKey(k);
  }

  lemma MediaFieldNameParses(k: MediaField)
    ensures ParseMediaField(MediaFieldName(k)) == Some(k)
  {
  }

  lemma MediaFieldNameIsKey(k: MediaField)
    ensures KeyName(MediaFieldName(k))
  {
  }

  /** Every key name parses back to its key and is plain. */
  lemma NamesRoundTrip()
    ensures forall k :: ParseExpansion(ExpansionName(k)) == Some(k) && KeyName(ExpansionName(k))
    ensures forall k :: ParseTweetField(TweetFieldName(k)) == Some(k) && KeyName(TweetFieldName(k))
    ensures forall k :: ParseUserField(UserFieldName(k)) == Some(k) && KeyName(UserFieldName(k))
    ensures forall k :: ParseMediaField(MediaFieldName(k)) == Some(k) && KeyName(MediaFieldName(k))
  {
    forall k: TweetExpansion ensures ParseExpansion(ExpansionName(k)) == Some(k) && KeyName(ExpansionName(k)) {
      ExpansionNamesRoundTrip(k);
    }
    forall k: TweetField ensures ParseTweetField(TweetFieldName(k)) == Some(k) && KeyName(TweetFieldName(k)) {
      TweetFieldNamesRoundTrip(k);
    }
    forall k: UserField ensures ParseUserField(UserFieldName(k)) == Some(k) && KeyName(UserFieldName(k)) {
      UserFieldNamesRoundTrip(k);
    }
    forall k: MediaField ensures ParseMediaField(MediaFieldName(k)) == Some(k) && KeyName(MediaFieldName(k)) {
      MediaFieldNamesRoundTrip(k);
    }
  }

  /** The builder's four private lists, in insertion order. */
  datatype Builder = Builder(
    expansions: seq<TweetExpansion>,
    tweetFields: seq<TweetField>,
    userFields: seq<UserField>,
    mediaFields: seq<MediaField>)

  /** `new RequestBuilder()`: every list empty. */
  const Fresh: Builder := Builder([], [], [], [])

  predicate NoDuplicates<K(==)>(ks: seq<K>) {
    forall i, j :: 0 <= i < j < |ks| ==> ks[i] != ks[j]
  }

  /** A builder reachable through the typed API: no key is added twice to a list. */
  predicate DuplicateFree(b: Builder) {
    NoDuplicates(b.expansions) && NoDuplicates(b.tweetFields)
    && NoDuplicates(b.userFields) && NoDuplicates(b.mediaFields)
  }

  /** `expansion(key)`; the typed API only admits a key not yet added. */
  function AddExpansion(b: Builder, k: TweetExpansion): (r: Builder)
    requires k !in b.expansions
    ensures |r.expansions| == |b.expansions| + 1 && r.expansions[|b.expansions|] == k
    ensures r.expansions[..|b.expansions|] == b.expansions
    ensures r.tweetFields == b.tweetFields && r.userFields == b.userFields && r.mediaFields == b.mediaFields
    ensures DuplicateFree(b) ==> DuplicateFree(r)
  {
    b.(expansions := b.expansions + [k])
  }

  /** `tweetField(key)`. */
  function AddTweetField(b: Builder, k: TweetField): (r: Builder)
    requires k !in b.tweetFields
    ensures |r.tweetFields| == |b.tweetFields| + 1 && r.tweetFields[|b.tweetFields|] == k
    ensures r.tweetFields[..|b.tweetFields|] == b.tweetFields
    ensures r.expansions == b.expansions && r.userFields == b.userFields && r.mediaFields == b.mediaFields
    ensures DuplicateFree(b) ==> DuplicateFree(r)
  {
    b.(tweetFields := b.tweetFields + [k])
  }

  /** `userField(key)`. */
  function AddUserField(b: Builder, k: UserField): (r: Builder)
    requires k !in b.userFields
    ensures |r.userFields| == |b.userFields| + 1 && r.userFields[|b.userFields|] == k
    ensures r.userFields[..|b.userFields|] == b.userFields
    ensures r.expansions == b.expansions && r.tweetFields == b.tweetFields && r.mediaFields == b.mediaFields
    ensures DuplicateFree(b) ==> DuplicateFree(r)
  {
    b.(userFields := b.userFields + [k])
  }

  /** `mediaField(key)`. */
  function AddMediaField(b: Builder, k: MediaField): (r: Builder)
    requires k !in b.mediaFields
    ensures |r.mediaFields| == |b.mediaFields| + 1 && r.mediaFields[|b.mediaFields|] == k
    ensures r.mediaFields[..|b.mediaFields|] == b.mediaFields
    ensures r.expansions == b.expansions && r.tweetFields == b.tweetFields && r.userFields == b.userFields
    ensures DuplicateFree(b) ==> DuplicateFree(r)
  {
    b.(mediaFields := b.mediaFields + [k])
  }

  function Names<K>(ks: seq<K>, name: K -> string): (r: seq<string>)
    ensures |r| == |ks|
    ensures forall i :: 0 <= i < |ks| ==> r[i] == name(ks[i])
  {
    seq(|ks|, i requires 0 <= i < |ks| => name(ks[i]))
  }

  /** One `&tag=k1,k2,...` segment; nothing at all for an empty list. */
  function Segment(tag: string, names: seq<string>): string {
    if |names| == 0 then "" else "&" + tag + "=" + Join(names, ',')
  }

  /** `toParams()`: the four segments in their fixed order. */
  function ToParams(b: Builder): (r: string)
    ensures r == "" <==> b == Fresh
  {
    Segment("tweet.fields", Names(b.tweetFields, TweetFieldName))
    + Segment("user.fields", Names(b.userFields, UserFieldName))
    + Segment("media.fields", Names(b.mediaFields, MediaFieldName))
    + Segment("expansions", Names(b.expansions, ExpansionName))
  }

  // ---------------------------------------------------------------------
  // Decoding the rendered suffix
  // ---------------------------------------------------------------------

  /** A segment as the decoder sees it: a tag and its comma-separated values. */
  datatype Section = Section(tag: string, values: seq<string>)

  predicate WellFormed(sec: Section) {
    && '&' !in sec.tag && '=' !in sec.tag
    && |sec.values| > 0
    && forall k :: 0 <= k < |sec.values| ==> ',' !in sec.values[k] && '&' !in sec.values[k]
  }

  function Section1(tag: string, names: seq<string>): seq<Section> {
    if |names| == 0 then [] else [Section(tag, names)]
  }

  /** The segments `ToParams` emits, as sections. */
  function Sections(b: Builder): seq<Section> {
    Section1("tweet.fields", Names(b.tweetFields, TweetFieldName))
    + Section1("user.fields", Names(b.userFields, UserFieldName))
    + Section1("media.fields", Names(b.mediaFields, MediaFieldName))
    + Section1("expansions", Names(b.expansions, ExpansionName))
  }

  function Render(secs: seq<Section>): string {
    if secs == [] then ""
    else "&" + secs[0].tag + "=" + Join(secs[0].values, ',') + Render(secs[1..])
  }

  lemma {:induction false} RenderAppend(a: seq<Section>, b: seq<Section>)
    ensures Render(a + b) == Render(a) + Render(b)
  {
    if a != [] {
      assert (a + b)[1..] == a[1..] + b;
      RenderAppend(a[1..], b);
    } else {
      assert a + b == b;
    }
  }

  lemma RenderSection1(tag: string, names: seq<string>)
    ensures Render(Section1(tag, names)) == Segment(tag, names)
  {
    if |names| > 0 {
      var secs := Section1(tag, names);
      assert secs[1..] == [];
      assert Render(secs) == "&" + tag + "=" + Join(names, ',') + Render([]);
    }
  }

  lemma ToParamsRendersSections(b: Builder)
    ensures ToParams(b) == Render(Sections(b))
  {
    var t := Section1("tweet.fields", Names(b.tweetFields, TweetFieldName));
    var u := Section1("user.fields", Names(b.userFields, UserFieldName));
    var m := Section1("media.fields", Names(b.mediaFields, MediaFieldName));
    var e := Section1("expansions", Names(b.expansions, ExpansionName));
    RenderSection1("tweet.fields", Names(b.tweetFields, TweetFieldName));
    RenderSection1("user.fields", Names(b.userFields, UserFieldName));
    RenderSection1("media.fields", Names(b.mediaFields, MediaFieldName));
    RenderSection1("expansions", Names(b.expansions, ExpansionName));
    RenderAppend(t + u + m, e);
    RenderAppend(t + u, m);
    RenderAppend(t, u);
  }

  /** Cuts a rendered suffix back into sections; None when it is not of that shape. */
  function ParseSections(s: string): Option<seq<Section>>
    decreases |s|
  {
    if s == "" then Some([])
    else if s[0] != '&' then None
    else
      var rest := s[1..];
      var i := IndexOf(rest, '&');
      var seg := rest[..i];
      var j := IndexOf(seg, '=');
      if j == |seg| then None
      else
        match ParseSections(rest[i..])
        case None => None
        case Some(tail) => Some([Section(seg[..j], Split(seg[j + 1..], ','))] + tail)
  }

  /** Where `ParseSections` cuts the first segment of a rendered suffix. */
  lemma CutSegment(tag: string, joined: string, tail: string)
    requires '&' !in tag && '=' !in tag && '&' !in joined
    requires tail == "" || tail[0] == '&'
    ensures var rest := ("&" + tag + "=" + joined + tail)[1..];
      var i := IndexOf(rest, '&');
      && rest[..i] == tag + "=" + joined
      && rest[i..] == tail
  {
    var seg := tag + "=" + joined;
    var rest := ("&" + tag + "=" + joined + tail)[1..];
    assert rest == seg + tail;
    IndexOfAfter(seg, tail, '&');
  }

  /** Where `ParseSections` cuts a segment into its tag and its values. */
  lemma CutTag(tag: string, joined: string)
    requires '=' !in tag
    ensures var seg := tag + "=" + joined;
      var j := IndexOf(seg, '=');
      && j < |seg|
      && seg[..j] == tag
      && seg[j + 1..] == joined
  {
    var seg := tag + "=" + joined;
    assert seg == tag + ("=" + joined);
    IndexOfAfter(tag, "=" + joined, '=');
  }

  lemma ParseHead(sec: Section, tail: string)
    requires WellFormed(sec)
    requires tail == "" || tail[0] == '&'
    ensures ParseSections("&" + sec.tag + "=" + Join(sec.values, ',') + tail)
         == match ParseSections(tail)
            case None => None
            case Some(secs) => Some([sec] + secs)
  {
    var joined := Join(sec.values, ',');
    JoinFree(sec.values, ',', '&');
    CutSegment(sec.tag, joined, tail);
    CutTag(sec.tag, joined);
    SplitJoin(sec.values, ',');
  }

  lemma {:induction false} ParseRender(secs: seq<Section>)
    requires forall k :: 0 <= k < |secs| ==> WellFormed(secs[k])
    ensures ParseSections(Render(secs)) == Some(secs)
  {
    if secs != [] {
      ParseHead(secs[0], Render(secs[1..]));
      ParseRender(secs[1..]);
      assert [secs[0]] + secs[1..] == secs;
    }
  }

  /** Parses every name, failing if any is not a key. */
  function ParseAll<K>(names: seq<string>, parse: string -> Option<K>): (r: Option<seq<K>>)
    ensures r.Some? ==> |r.value| == |names|
  {
    if names == [] then Some([])
    else
      match (parse(names[0]), ParseAll(names[1..], parse))
      case (Some(k), Some(ks)) => Some([k] + ks)
      case _ => None
  }

  lemma {:induction false} ParseAllNames<K>(ks: seq<K>, name: K -> string, parse: string -> Option<K>)
    requires forall k :: parse(name(k)) == Some(k)
    ensures ParseAll(Names(ks, name), parse) == Some(ks)
  {
    if ks != [] {
      assert Names(ks, name)[1..] == Names(ks[1..], name);
      ParseAllNames(ks[1..], name, parse);
      assert [ks[0]] + ks[1..] == ks;
    }
  }

  /** Takes the leading section when it carries `tag`; otherwise takes nothing. */
  function TakeSection(secs: seq<Section>, tag: string): (seq<string>, seq<Section>) {
    if secs != [] && secs[0].tag == tag then (secs[0].values, secs[1..]) else ([], secs)
  }

  /** Reads the sections back into a builder; the labels must come in the fixed order. */
  function Assemble(secs: seq<Section>): Option<Builder> {
    match Untag(secs)
    case None => None
    case Some((tf, uf, mf, ex)) =>
      match (ParseAll(tf, ParseTweetField), ParseAll(uf, ParseUserField),
             ParseAll(mf, ParseMediaField), ParseAll(ex, ParseExpansion))
      case (Some(t), Some(u), Some(m), Some(e)) => Some(Builder(e, t, u, m))
      case _ => None
  }

  /** The value lists of the four tags, taken in their fixed order; nothing may be left over. */
  function Untag(secs: seq<Section>): Option<(seq<string>, seq<string>, seq<string>, seq<string>)> {
    var (tf, s1) := TakeSection(secs, "tweet.fields");
    var (uf, s2) := TakeSection(s1, "user.fields");
    var (mf, s3) := TakeSection(s2, "media.fields");
    var (ex, s4) := TakeSection(s3, "expansions");
    if s4 != [] then None else Some((tf, uf, mf, ex))
  }

  /** The decoder: a query-string suffix back to the builder that renders it. */
  function ParseParams(s: string): Option<Builder> {
    match ParseSections(s)
    case None => None
    case Some(secs) => Assemble(secs)
  }

  lemma NamesWellFormed<K>(tag: string, ks: seq<K>, name: K -> string)
    requires KeyName(tag)
    requires forall k :: KeyName(name(k))
    ensures forall k :: 0 <= k < |Section1(tag, Names(ks, name))| ==> WellFormed(Section1(tag, Names(ks, name))[k])
  {
    KeyNameIsPlain(tag);
    forall i | 0 <= i < |ks| ensures ',' !in name(ks[i]) && '&' !in name(ks[i]) {
      KeyNameIsPlain(name(ks[i]));
    }
  }

  lemma SectionsWellFormed(b: Builder)
    ensures forall k :: 0 <= k < |Sections(b)| ==> WellFormed(Sections(b)[k])
  {
    NamesRoundTrip();
    NamesWellFormed("tweet.fields", b.tweetFields, TweetFieldName);
    NamesWellFormed("user.fields", b.userFields, UserFieldName);
    NamesWellFormed("media.fields", b.mediaFields, MediaFieldName);
    NamesWellFormed("expansions", b.expansions, ExpansionName);
  }

  lemma TakeSection1(tag: string, names: seq<string>, rest: seq<Section>)
    requires rest == [] || rest[0].tag != tag
    ensures TakeSection(Section1(tag, names) + rest, tag) == (names, rest)
  {
    if |names| == 0 {
      assert Section1(tag, names) + rest == rest;
    } else {
      assert (Section1(tag, names) + rest)[1..] == rest;
    }
  }

  lemma AssembleSections(b: Builder)
    ensures Assemble(Sections(b)) == Some(b)
  {
    UntagSections(b);
    forall k: TweetField ensures ParseTweetField(TweetFieldName(k)) == Some(k) {
      TweetFieldNameParses(k);
    }
    forall k: UserField ensures ParseUserField(UserFieldName(k)) == Some(k) {
      UserFieldNameParses(k);
    }
    forall k: MediaField ensures ParseMediaField(MediaFieldName(k)) == Some(k) {
      MediaFieldNameParses(k);
    }
    forall k: TweetExpansion ensures ParseExpansion(ExpansionName(k)) == Some(k) {
      ExpansionNameParses(k);
    }
    ParseAllNames(b.tweetFields, TweetFieldName, ParseTweetField);
    ParseAllNames(b.userFields, UserFieldName, ParseUserField);
    ParseAllNames(b.mediaFields, MediaFieldName, ParseMediaField);
    ParseAllNames(b.expansions, ExpansionName, ParseExpansion);
  }

  /** The rendered sections come apart into the four name lists. */
  lemma UntagSections(b: Builder)
    ensures Untag(Sections(b)) == Some((Names(b.tweetFields, TweetFieldName), Names(b.userFields, UserFieldName),
                                        Names(b.mediaFields, MediaFieldName), Names(b.expansions, ExpansionName)))
  {
    var tn := Names(b.tweetFields, TweetFieldName);
    var un := Names(b.userFields, UserFieldName);
    var mn := Names(b.mediaFields, MediaFieldName);
    var en := Names(b.expansions, ExpansionName);
    var t := Section1("tweet.fields", tn);
    var u := Section1("user.fields", un);
    var m := Section1("media.fields", mn);
    var e := Section1("expansions", en);
    assert Sections(b) == t + (u + (m + e));
    TakeSection1("expansions", en, []);
    assert e + [] == e;
    TakeSection1("media.fields", mn, e);
    TakeSection1("user.fields", un, m + e);
    TakeSection1("tweet.fields", tn, u + (m + e));
  }

  /**
   * Round trip: the rendered suffix determines the builder completely, so
   * every segment is present exactly when its list is non-empty, segments
   * come in the order tweet.fields, user.fields, media.fields, expansions,
   * and each lists its keys comma-joined in insertion order.
   */
  lemma ParamsRoundTrip(b: Builder)
    ensures ParseParams(ToParams(b)) == Some(b)
  {
    ToParamsRendersSections(b);
    SectionsWellFormed(b);
    ParseRender(Sections(b));
    AssembleSections(b);
  }

  /** Different builders never render to the same suffix. */
  lemma ToParamsInjective(a: Builder, b: Builder)
    requires ToParams(a) == ToParams(b)
    ensures a == b
  {
    ParamsRoundTrip(a);
    ParamsRoundTrip(b);
  }

  /** The builder `customSearchTweets` assembles, key by key. */
  function CustomSearchBuilder(): (r: Builder)
    ensures DuplicateFree(r)
    ensures r.expansions == [ExpandAttachmentsMediaKeys, ExpandAuthorId]
    ensures r.tweetFields == [TweetPublicMetrics] && r.userFields == [ProfileImageUrl]
    ensures r.mediaFields == [PreviewImageUrl]
  {
    var b1 := AddExpansion(Fresh, ExpandAttachmentsMediaKeys);
    var b2 := AddExpansion(b1, ExpandAuthorId);
    var b3 := AddTweetField(b2, TweetPublicMetrics);
    var b4 := AddUserField(b3, ProfileImageUrl);
    AddMediaField(b4, PreviewImageUrl)
  }

  /** The segment of a one-key list. */
  lemma SingleKeySegment<K>(tag: string, k: K, name: K -> string)
    ensures Segment(tag, Names([k], name)) == "&" + tag + "=" + name(k)
  {
    assert Names([k], name) == [name(k)];
  }

  /** The segment of a two-key list. */
  lemma TwoKeySegment<K>(tag: string, k1: K, k2: K, name: K -> string)
    ensures Segment(tag, Names([k1, k2], name)) == "&" + tag + "=" + (name(k1) + "," + name(k2))
  {
    var ns := Names([k1, k2], name);
    assert ns == [name(k1), name(k2)];
    assert ns[1..] == [name(k2)];
    assert Join(ns, ',') == name(k1) + [','] + name(k2);
    assert [','] == ",";
  }

  // The wire names of the keys `customSearchTweets` adds, one lemma each so
  // that each literal is evaluated on its own.
  lemma PublicMetricsName() ensures TweetFieldName(TweetPublicMetrics) == "public_metrics" {}
  lemma ProfileImageUrlName() ensures UserFieldName(ProfileImageUrl) == "profile_image_url" {}
  lemma PreviewImageUrlName() ensures MediaFieldName(PreviewImageUrl) == "preview_image_url" {}
  lemma MediaKeysName() ensures ExpansionName(ExpandAttachmentsMediaKeys) == "attachments.media_keys" {}
  lemma AuthorIdName() ensures ExpansionName(ExpandAuthorId) == "author_id" {}

  lemma CustomSearchTweetFields()
    ensures Segment("tweet.fields", Names(CustomSearchBuilder().tweetFields, TweetFieldName))
         == "&tweet.fields=" + "public_metrics"
  {
    SingleKeySegment("tweet.fields", TweetPublicMetrics, TweetFieldName);
    PublicMetricsName();
    assert "&" + "tweet.fields" + "=" == "&tweet.fields=";
  }

  lemma CustomSearchUserFields()
    ensures Segment("user.fields", Names(CustomSearchBuilder().userFields, UserFieldName))
         == "&user.fields=" + "profile_image_url"
  {
    SingleKeySegment("user.fields", ProfileImageUrl, UserFieldName);
    ProfileImageUrlName();
    assert "&" + "user.fields" + "=" == "&user.fields=";
  }

  lemma CustomSearchMediaFields()
    ensures Segment("media.fields", Names(CustomSearchBuilder().mediaFields, MediaFieldName))
         == "&media.fields=" + "preview_image_url"
  {
    SingleKeySegment("media.fields", PreviewImageUrl, MediaFieldName);
    PreviewImageUrlName();
    assert "&" + "media.fields" + "=" == "&media.fields=";
  }

  lemma CustomSearchExpansions()
    ensures Segment("expansions", Names(CustomSearchBuilder().expansions, ExpansionName))
         == "&expansions=" + "attachments.media_keys" + "," + "author_id"
  {
    TwoKeySegment("expansions", ExpandAttachmentsMediaKeys, ExpandAuthorId, ExpansionName);
    MediaKeysName();
    AuthorIdName();
    assert "&" + "expansions" + "=" == "&expansions=";
  }

  /** The query-string suffix `customSearchTweets` sends. */
  lemma CustomSearchParams()
    ensures ToParams(CustomSearchBuilder())
         == ("&tweet.fields=" + "public_metrics")
          + ("&user.fields=" + "profile_image_url")
          + ("&media.fields=" + "preview_image_url")
          + ("&expansions=" + "attachments.media_keys" + "," + "author_id")
  {
    CustomSearchTweetFields();
    CustomSearchUserFields();
    CustomSearchMediaFields();
    CustomSearchExpansions();
  }

  const SearchPath: string := "tweets/search/recent?query="

  /**
   * The endpoint `searchTweets` requests. `encode` stands for
   * `encodeURIComponent`, which is not modelled.
   */
  function SearchEndpoint(query: string, b: Builder, encode: string -> string): string {
    SearchPath + encode(query) + ToParams(b)
  }

  /** Splits an endpoint back into its encoded query and its builder. */
  function ParseEndpoint(s: string): Option<(string, Builder)> {
    if |s| < |SearchPath| || s[..|SearchPath|] != SearchPath then None
    else SplitQuery(s[|SearchPath|..])
  }

  /** Splits the part after the search path at its first `&`. */
  function SplitQuery(rest: string): Option<(string, Builder)> {
    var i := IndexOf(rest, '&');
    match ParseParams(rest[i..])
    case None => None
    case Some(b) => Some((rest[..i], b))
  }

  lemma ConcatAssoc(a: string, b: string, c: string)
    ensures a + b + c == a + (b + c)
  {
  }

  lemma StripSearchPath(tail: string)
    ensures ParseEndpoint(SearchPath + tail) == SplitQuery(tail)
  {
    var s := SearchPath + tail;
    assert s[..|SearchPath|] == SearchPath;
    assert s[|SearchPath|..] == tail;
  }

  lemma SplitQueryParams(q: string, b: Builder)
    requires '&' !in q
    ensures SplitQuery(q + ToParams(b)) == Some((q, b))
  {
    var p := ToParams(b);
    assert p == "" || p[0] == '&';
    IndexOfAfter(q, p, '&');
    assert (q + p)[..|q|] == q;
    assert (q + p)[|q|..] == p;
    ParamsRoundTrip(b);
  }

  /**
   * The endpoint carries the encoded query and the builder's parameters
   * unambiguously, given that the encoded query holds no `&` (an ampersand
   * is always percent-encoded by `encodeURIComponent`).
   */
  lemma EndpointRoundTrip(query: string, b: Builder, encode: string -> string)
    requires '&' !in encode(query)
    ensures ParseEndpoint(SearchEndpoint(query, b, encode)) == Some((encode(query), b))
  {
    var q := encode(query);
    ConcatAssoc(SearchPath, q, ToParams(b));
    StripSearchPath(q + ToParams(b));
    SplitQueryParams(q, b);
  }
}

=== FILE: scroll.dfy ===
/**
 * The scroll container of the row: dragging with the finger, then momentum
 * with deceleration and a spring back when scrolled past the start.
 * Positions, velocities and times are exact reals; times are in milliseconds.
 */
module Scroll {

  /** The refs of the scroll container. */
  datatype ScrollState = ScrollState(
    groupX: real,            // x of the group holding the cards
    velocity: real,
    dragging: bool,
    touchStartPoint: real,   // finger x at touch start
    touchStartGroupX: real,  // group x at touch start
    lastTime: real)          // time of the previous frame, for momentum

  const Initial: ScrollState := ScrollState(0.0, 0.0, false, 0.0, 0.0, 0.0)

  /** Below this speed momentum stops; below this offset the spring snaps to zero. */
  const Epsilon: real := 0.00001
  const Deceleration: real := 0.0027
  const SpringRate: real := 0.01

  function Sign(v: real): int {
    if v > 0.0 then 1 else if v < 0.0 then -1 else 0
  }

  function Abs(v: real): real {
    if v < 0.0 then -v else v
  }

  /** `onTouchStart`: remember where the finger and the group were. */
  function TouchStart(s: ScrollState, pointX: real): (r: ScrollState)
    ensures r.dragging && r.touchStartPoint == pointX && r.touchStartGroupX == s.groupX
    ensures r.groupX == s.groupX && r.velocity == s.velocity && r.lastTime == s.lastTime
  {
    s.(dragging := true, touchStartPoint := pointX, touchStartGroupX := s.groupX)
  }

  /**
   * `onTouchFrame`: the group follows the finger's displacement since touch
   * start; the velocity is this frame's movement over the frame time.
   */
  function TouchFrame(s: ScrollState, pointX: real, dt: real): (r: ScrollState)
    requires dt != 0.0
    ensures r.groupX - s.touchStartGroupX == pointX - s.touchStartPoint
    ensures r.velocity * dt == r.groupX - s.groupX
    ensures r.dragging == s.dragging && r.touchStartPoint == s.touchStartPoint
    ensures r.touchStartGroupX == s.touchStartGroupX && r.lastTime == s.lastTime
  {
    var x := s.touchStartGroupX + pointX - s.touchStartPoint;
    s.(groupX := x, velocity := (x - s.groupX) / dt)
  }

  /** `onTouchEnd`: momentum takes over from the last velocity. */
  function TouchEnd(s: ScrollState): (r: ScrollState)
    ensures !r.dragging && r.groupX == s.groupX && r.velocity == s.velocity
  {
    s.(dragging := false)
  }

  /** A drag frame: the finger's x and the time since the previous touch frame. */
  datatype DragFrame = DragFrame(pointX: real, dt: real)

  function Drag(s: ScrollState, frames: seq<DragFrame>): ScrollState
    requires forall k :: 0 <= k < |frames| ==> frames[k].dt != 0.0
    decreases |frames|
  {
    if frames == [] then s
    else Drag(TouchFrame(s, frames[0].pointX, frames[0].dt), frames[1..])
  }

  /**
   * While dragging, the group's x is its x at touch start plus the finger's
   * displacement since touch start, whatever frames came in between.
   */
  lemma {:induction false} DragFollowsFinger(s: ScrollState, frames: seq<DragFrame>)
    requires frames != []
    requires forall k :: 0 <= k < |frames| ==> frames[k].dt != 0.0
    ensures Drag(s, frames).groupX == s.touchStartGroupX + frames[|frames| - 1].pointX - s.touchStartPoint
    ensures Drag(s, frames).touchStartGroupX == s.touchStartGroupX
    decreases |frames|
  {
    var s' := TouchFrame(s, frames[0].pointX, frames[0].dt);
    if |frames| > 1 {
      DragFollowsFinger(s', frames[1..]);
    }
  }

  /** Touching down and not moving leaves the group where it was. */
  lemma NoJumpOnTouch(s: ScrollState, pointX: real, dt: real)
    requires dt != 0.0
    ensures TouchFrame(TouchStart(s, pointX), pointX, dt).groupX == s.groupX
    ensures TouchFrame(TouchStart(s, pointX), pointX, dt).velocity == 0.0
  {
  }

  lemma MulPos(a: real, b: real)
    requires a > 0.0 && b > 0.0
    ensures a * b > 0.0
  {
  }

  lemma MulNonNeg(a: real, b: real)
    requires a >= 0.0 && b >= 0.0
    ensures a * b >= 0.0
  {
  }

  /** Scaling a velocity by `f` keeps its direction exactly when `f` is positive. */
  lemma ScaledVelocity(v: real, f: real)
    ensures Abs(v * f) == Abs(v) * Abs(f)
    ensures v != 0.0 ==> (Sign(v * f) == Sign(v) <==> f > 0.0)
    ensures 0.0 <= f <= 1.0 ==> Abs(v * f) <= Abs(v)
  {
    if v > 0.0 && f > 0.0 {
      MulPos(v, f);
    } else if v > 0.0 && f < 0.0 {
      MulPos(v, -f);
      assert v * f == -(v * -f);
    } else if v < 0.0 && f > 0.0 {
      MulPos(-v, f);
      assert v * f == -(-v * f);
    } else if v < 0.0 && f < 0.0 {
      MulPos(-v, -f);
      assert v * f == -v * -f;
    } else {
      assert v * f == 0.0;
    }
    if 0.0 <= f <= 1.0 {
      MulNonNeg(Abs(v), 1.0 - f);
      assert Abs(v) * f + Abs(v) * (1.0 - f) == Abs(v);
    }
  }

  /**
   * Deceleration: velocity shrinks by a fixed rate per millisecond, and drops
   * to zero when it gets tiny or would change sign.
   */
  function Decelerate(v: real, dt: real): (r: real)
    ensures r == 0.0 || (Sign(r) == Sign(v) && Abs(r) >= Epsilon)
    ensures dt >= 0.0 ==> Abs(r) <= Abs(v)
    ensures r != 0.0 ==> r == v * (1.0 - Deceleration * dt)
    ensures r == 0.0 <==>
      v == 0.0 || Deceleration * dt >= 1.0 || Abs(v) * (1.0 - Deceleration * dt) < Epsilon
  {
    var prevSign := Sign(v);
    var v' := v - v * Deceleration * dt;
    ScaledVelocity(v, 1.0 - Deceleration * dt);
    if Abs(v') < Epsilon || Sign(v') != prevSign then 0.0 else v'
  }

  /** The x offset and the velocity, before or after a momentum frame. */
  datatype Motion = Motion(x: real, velocity: real)

  /**
   * One momentum frame while not dragging, `dt` milliseconds after the
   * previous frame: a spring pulls a positive offset back (snapping tiny
   * ones to zero), and a non-zero velocity moves the group and decelerates.
   */
  function Momentum(m: Motion, dt: real): (r: Motion)
    ensures r.velocity == 0.0 || (Sign(r.velocity) == Sign(m.velocity) && Abs(r.velocity) >= Epsilon)
    ensures dt >= 0.0 ==> Abs(r.velocity) <= Abs(m.velocity)
    ensures 0.0 < m.x < Epsilon ==> r == Motion(0.0, 0.0)
    ensures !(0.0 < m.x < Epsilon) ==> r.velocity == Decelerate(m.velocity, dt)
  {
    var (x, v, spring) :=
      if m.x > 0.0 then
        if m.x < Epsilon then (0.0, 0.0, 0.0) else (m.x, m.velocity, -(m.x * SpringRate * dt))
      else (m.x, m.velocity, 0.0);
    if v != 0.0 then
      var amount := spring + v * dt;
      Motion(if amount != 0.0 then amount + x else x, Decelerate(v, dt))
    else
      Motion(if spring != 0.0 then spring + x else x, v)
  }

  /** At rest at or left of the start, a momentum frame changes nothing. */
  lemma MomentumAtRest(x: real, dt: real)
    requires x <= 0.0
    ensures Momentum(Motion(x, 0.0), dt) == Motion(x, 0.0)
  {
  }

  /** Without velocity, the spring pulls a positive offset towards zero without overshooting. */
  lemma SpringPullsBack(x: real, dt: real)
    requires x >= Epsilon && 0.0 <= dt <= 1.0 / SpringRate
    ensures 0.0 <= Momentum(Motion(x, 0.0), dt).x <= x
  {
    assert x * SpringRate * dt <= x by {
      assert SpringRate * dt <= 1.0;
    }
  }

  /** The moves of a momentum frame: spring plus velocity times frame time. */
  lemma MomentumMoves(m: Motion, dt: real)
    requires m.x <= 0.0 || m.x >= Epsilon
    ensures Momentum(m, dt).x == m.x + (if m.x > 0.0 then -(m.x * SpringRate * dt) else 0.0) + m.velocity * dt
  {
  }

  /**
   * The momentum frame callback: nothing moves while dragging; otherwise the
   * group takes one momentum step over the time since the last frame. The
   * time is recorded on every frame.
   */
  function MomentumFrame(s: ScrollState, time: real): (r: ScrollState)
    ensures r.lastTime == time
    ensures s.dragging ==> r == s.(lastTime := time)
    ensures r.dragging == s.dragging && r.touchStartPoint == s.touchStartPoint && r.touchStartGroupX == s.touchStartGroupX
    ensures !s.dragging && 0.0 < s.groupX < Epsilon ==> r.groupX == 0.0 && r.velocity == 0.0
    ensures !s.dragging && !(0.0 < s.groupX < Epsilon) ==> r.velocity == Decelerate(s.velocity, time - s.lastTime)
    ensures !s.dragging && (s.groupX <= 0.0 || s.groupX >= Epsilon) ==>
      r.groupX == s.groupX + (if s.groupX > 0.0 then -(s.groupX * SpringRate * (time - s.lastTime)) else 0.0)
                  + s.velocity * (time - s.lastTime)
  {
    if s.dragging then s.(lastTime := time)
    else
      var m := Momentum(Motion(s.groupX, s.velocity), time - s.lastTime);
      s.(groupX := m.x, velocity := m.velocity, lastTime := time)
  }
}

=== FILE: strings.dfy ===
/** Character searches, splitting and joining on a separator character. */
module Strings {

  /** Position of the first `c` in `s`, or `|s|` when `c` does not occur. */
  function IndexOf(s: string, c: char): (r: nat)
    ensures r <= |s|
    ensures r < |s| ==> s[r] == c
    ensures forall k :: 0 <= k < r ==> s[k] != c
  {
    if |s| == 0 then 0
    else if s[0] == c then 0
    else 1 + IndexOf(s[1..], c)
  }

  lemma IndexOfAbsent(s: string, c: char)
    ensures IndexOf(s, c) == |s| <==> c !in s
  {
    if IndexOf(s, c) < |s| {
      assert s[IndexOf(s, c)] == c;
    } else {
      forall k | 0 <= k < |s| ensures s[k] != c { }
    }
  }

  /** The first `c` in `a + b` is at `|a|` when `a` has none and `b` is empty or starts with `c`. */
  lemma IndexOfAfter(a: string, b: string, c: char)
    requires c !in a
    requires b == [] || b[0] == c
    ensures IndexOf(a + b, c) == |a|
  {
    var s := a + b;
    assert forall k :: 0 <= k < |a| ==> s[k] == a[k];
    if b != [] {
      assert s[|a|] == c;
    }
  }

  /** Comma-style join: elements separated by one `sep` each (JavaScript `Array.join`). */
  function Join(xs: seq<string>, sep: char): (r: string)
    ensures |xs| > 0 ==> |r| >= |xs[0]| && r[..|xs[0]|] == xs[0]
    ensures |xs| > 1 ==> |r| > |xs[0]| && r[|xs[0]|] == sep
  {
    if |xs| == 0 then ""
    else if |xs| == 1 then xs[0]
    else xs[0] + [sep] + Join(xs[1..], sep)
  }

  /** Splitting at every `sep`; always yields at least one piece (JavaScript `String.split`). */
  function Split(s: string, sep: char): (r: seq<string>)
    ensures |r| > 0
    ensures forall k :: 0 <= k < |r| ==> sep !in r[k]
    decreases |s|
  {
    var i := IndexOf(s, sep);
    if i == |s| then
      IndexOfAbsent(s, sep);
      [s]
    else
      assert sep !in s[..i];
      [s[..i]] + Split(s[i + 1..], sep)
  }

  lemma JoinFree(xs: seq<string>, sep: char, c: char)
    requires forall k :: 0 <= k < |xs| ==> c !in xs[k]
    requires c != sep
    ensures c !in Join(xs, sep)
  {
    if |xs| > 1 {
      JoinFree(xs[1..], sep, c);
    }
  }

  /** Splitting undoes joining, when no piece contains the separator. */
  lemma {:induction false} SplitJoin(xs: seq<string>, sep: char)
    requires |xs| > 0
    requires forall k :: 0 <= k < |xs| ==> sep !in xs[k]
    ensures Split(Join(xs, sep), sep) == xs
  {
    if |xs| == 1 {
      IndexOfAbsent(xs[0], sep);
    } else {
      var tail := Join(xs[1..], sep);
      var s := xs[0] + [sep] + tail;
      assert s == xs[0] + ([sep] + tail);
      IndexOfAfter(xs[0], [sep] + tail, sep);
      assert s[..|xs[0]|] == xs[0];
      assert s[|xs[0]| + 1..] == tail;
      SplitJoin(xs[1..], sep);
      assert [xs[0]] + xs[1..] == xs;
    }
  }
}

=== FILE: thumbs_up.dfy ===
/**
 * `useThumbsUp`: a per-frame decision whether the hand makes a thumbs-up,
 * from distances between tracked joints (measured elsewhere and given here
 * as inputs).
 */
module ThumbsUp {

  /** The joint measurements a frame supplies. */
  datatype HandPose = HandPose(
    indexTipToMetacarpal: real,   // index fingertip to index metacarpal
    thumbTipY: real,              // height of the thumb tip
    thumbKnuckleY: real,          // height of the thumb's proximal phalanx
    thumbTipToKnuckle: real,      // thumb tip to that knuckle
    thumbTipToIndexJoint: real)   // thumb tip to the index finger's intermediate phalanx

  /** The frame's findings, as the debug text reports them. */
  datatype Check = Check(tucked: bool, didCheckThumb: bool, pointedUp: bool, away: bool, thumbsUp: bool)

  /** Index fingertip closer than this to its metacarpal counts as tucked. */
  const TuckedDistance: real := 0.04

  /** Whether a distance between joints is plausible: distances are never negative. */
  predicate Measured(p: HandPose) {
    p.indexTipToMetacarpal >= 0.0 && p.thumbTipToKnuckle >= 0.0 && p.thumbTipToIndexJoint >= 0.0
  }

  /**
   * The classification: the thumb is only examined with the index finger
   * tucked; it must point up (tip above its knuckle by more than half their
   * distance) and stand away from the hand (tip further than half that
   * distance from the index finger's middle joint).
   */
  function Classify(p: HandPose): (r: Check)
    ensures r.tucked <==> p.indexTipToMetacarpal < TuckedDistance
    ensures !r.tucked ==> !r.didCheckThumb && !r.pointedUp && !r.away
    ensures r.tucked ==> r.didCheckThumb
    ensures r.tucked ==> (r.pointedUp <==> p.thumbTipY - p.thumbKnuckleY > p.thumbTipToKnuckle / 2.0)
    ensures r.tucked ==> (r.away <==> p.thumbTipToIndexJoint > p.thumbTipToKnuckle / 2.0)
    ensures r.thumbsUp <==> r.tucked && r.pointedUp && r.away
  {
    var tucked := p.indexTipToMetacarpal < TuckedDistance;
    if tucked then
      var pointedUp := p.thumbTipY - p.thumbKnuckleY > p.thumbTipToKnuckle / 2.0;
      var away := p.thumbTipToIndexJoint > p.thumbTipToKnuckle / 2.0;
      Check(true, true, pointedUp, away, pointedUp && away)
    else Check(false, false, false, false, false)
  }

  /** In a thumbs-up the thumb tip is strictly above its knuckle and off the index finger. */
  lemma ThumbsUpGeometry(p: HandPose)
    requires Measured(p)
    requires Classify(p).thumbsUp
    ensures p.thumbTipY > p.thumbKnuckleY
    ensures p.thumbTipToIndexJoint > 0.0
    ensures p.indexTipToMetacarpal < TuckedDistance
  {
  }

  /** A fist pointed up (thumb against the index finger) is not a thumbs-up. */
  lemma FistIsNotThumbsUp(p: HandPose)
    requires p.thumbTipToIndexJoint <= p.thumbTipToKnuckle / 2.0
    ensures !Classify(p).thumbsUp
  {
  }

  /** The hook's stored answer, updated only on frames where the hands are ready. */
  function Frame(stored: bool, handsReady: bool, p: HandPose): (r: bool)
    ensures handsReady ==> (r <==> Classify(p).thumbsUp)
    ensures !handsReady ==> r == stored
  {
    if handsReady then Classify(p).thumbsUp else stored
  }
}

=== FILE: touch.dfy ===
/**
 * `useTouch`: each frame, a ray from the index finger's metacarpal through
 * its tip is cast at a surface; the sequence of hits and misses becomes
 * touch-start, touch-frame and touch-end events. The raycast itself is an
 * input: the first intersection of the frame, if any.
 */
module Touch {
  import opened Wrappers

  /** The hook's refs: whether the finger was touching, the intersection at touch start, the last frame time. */
  datatype TouchState<I> = TouchState(wasTouching: bool, lastIntersection: Option<I>, lastTime: real)

  function Initial<I>(): TouchState<I> {
    TouchState(false, None, 0.0)
  }

  /** One frame as the hook sees it. `hit` is only looked at when hands are ready and the mesh is there. */
  datatype Frame<I> = Frame(time: real, handsReady: bool, meshPresent: bool, hit: Option<I>)

  datatype Event<I> = Start(at: I) | Move(at: I, dt: real) | End(at: I)

  /** A touching finger always has its touch-start intersection recorded. */
  predicate Valid<I>(s: TouchState<I>) {
    s.wasTouching ==> s.lastIntersection.Some?
  }

  /** The per-frame callback: the new refs and the event fired, if any. */
  function Step<I>(s: TouchState<I>, f: Frame<I>): (r: (TouchState<I>, Option<Event<I>>))
    ensures r.0.lastTime == f.time
    ensures !(f.handsReady && f.meshPresent) ==> r == (s.(lastTime := f.time), None)
    ensures r.1.Some? && r.1.value.Start? <==> f.handsReady && f.meshPresent && f.hit.Some? && !s.wasTouching
    ensures r.1.Some? && r.1.value.Start? ==> r.0.wasTouching && r.1.value.at == f.hit.value
    ensures r.1.Some? && r.1.value.Start? ==> r.0.lastIntersection == f.hit
    ensures r.1.Some? && r.1.value.Move? <==> f.handsReady && f.meshPresent && f.hit.Some? && s.wasTouching
    ensures r.1.Some? && r.1.value.Move? ==> r.1.value.at == f.hit.value && r.1.value.dt == f.time - s.lastTime
    ensures r.1.Some? && r.1.value.Move? ==> r.0.wasTouching && r.0.lastIntersection == s.lastIntersection
    ensures r.1.Some? && r.1.value.End? <==>
      f.handsReady && f.meshPresent && f.hit.None? && s.wasTouching && s.lastIntersection.Some?
    ensures r.1.Some? && r.1.value.End? ==> !r.0.wasTouching && r.1.value.at == s.lastIntersection.value
    ensures r.1.Some? && r.1.value.End? ==> r.0.lastIntersection == s.lastIntersection
    ensures r.1.None? ==> r.0.wasTouching == s.wasTouching
    ensures Valid(s) ==> Valid(r.0)
  {
    if f.handsReady && f.meshPresent then
      match f.hit
      case Some(i) =>
        if !s.wasTouching then (TouchState(true, Some(i), f.time), Some(Start(i)))
        else (s.(lastTime := f.time), Some(Move(i, f.time - s.lastTime)))
      case None =>
        if s.wasTouching && s.lastIntersection.Some? then
          (s.(wasTouching := false, lastTime := f.time), Some(End(s.lastIntersection.value)))
        else (s.(lastTime := f.time), None)
    else (s.(lastTime := f.time), None)
  }

  /** The final state and the events fired over a sequence of frames. */
  function Run<I>(s: TouchState<I>, frames: seq<Frame<I>>): (r: (TouchState<I>, seq<Event<I>>))
    ensures |r.1| <= |frames|
    ensures frames == [] ==> r == (s, [])
    ensures frames != [] ==> r.0.lastTime == frames[|frames| - 1].time
    decreases |frames|
  {
    if frames == [] then (s, [])
    else
      var (s1, e) := Step(s, frames[0]);
      var (s2, es) := Run(s1, frames[1..]);
      (s2, (if e.Some? then [e.value] else []) + es)
  }

  /**
   * A well-bracketed event stream from the touch open before it (if any) to
   * the touch open after it: a start only when none is open, moves only
   * inside a touch, and an end that closes the open touch and carries the
   * intersection that touch started with.
   */
  predicate Bracketed<I(==)>(open: Option<I>, events: seq<Event<I>>, final: Option<I>)
    decreases |events|
  {
    if events == [] then open == final
    else match events[0]
      case Start(i) => open.None? && Bracketed(Some(i), events[1..], final)
      case Move(_, _) => open.Some? && Bracketed(open, events[1..], final)
      case End(i) => open == Some(i) && Bracketed(None, events[1..], final)
  }

  /** The touch a state has open, if it is touching. */
  function OpenTouch<I>(s: TouchState<I>): Option<I> {
    if s.wasTouching then s.lastIntersection else None
  }

  /**
   * Whatever the frames, the events form a well-bracketed stream from the
   * touch open at the start to the one open at the end: no end without a
   * start, no second start before an end, and every end carries the
   * intersection its touch started with.
   */
  lemma {:induction false} RunBracketed<I>(s: TouchState<I>, frames: seq<Frame<I>>)
    requires Valid(s)
    ensures Valid(Run(s, frames).0)
    ensures Bracketed(OpenTouch(s), Run(s, frames).1, OpenTouch(Run(s, frames).0))
    decreases |frames|
  {
    if frames != [] {
      var (s1, e) := Step(s, frames[0]);
      RunBracketed(s1, frames[1..]);
      var (s2, es) := Run(s1, frames[1..]);
      if e.Some? {
        assert Run(s, frames).1 == [e.value] + es;
        assert ([e.value] + es)[1..] == es;
      } else {
        assert Run(s, frames).1 == es;
      }
    }
  }

  /** From the initial refs, every run's events are well-bracketed. */
  lemma InitialRunBracketed<I>(frames: seq<Frame<I>>)
    ensures Bracketed(None, Run(Initial<I>(), frames).1, OpenTouch(Run(Initial<I>(), frames).0))
  {
    RunBracketed(Initial<I>(), frames);
  }

  /** Frames without ready hands or without the mesh fire nothing and keep the touch as it was. */
  lemma {:induction false} IdleRunSilent<I>(s: TouchState<I>, frames: seq<Frame<I>>)
    requires forall k :: 0 <= k < |frames| ==> !(frames[k].handsReady && frames[k].meshPresent)
    ensures Run(s, frames).1 == []
    ensures Run(s, frames).0.wasTouching == s.wasTouching
    ensures Run(s, frames).0.lastIntersection == s.lastIntersection
    ensures frames != [] ==> Run(s, frames).0.lastTime == frames[|frames| - 1].time
    decreases |frames|
  {
    if frames != [] {
      IdleRunSilent(s.(lastTime := frames[0].time), frames[1..]);
    }
  }
}

=== FILE: trimmed_text.dfy ===
/**
 * `useTrimmedText` (and the inline copies in the card components): a
 * two-phase loop between layout and content. The sync step records, for the
 * current full text, the character position of the caret at the bottom of
 * the clip rectangle; the pure step cuts the text there and drops trailing
 * whitespace.
 */
module TrimmedText {
  import opened Wrappers

  /** A cut position: a character index, or `Infinity` for "never cut". */
  datatype EndPosition = Infinity | At(index: nat)

  /** The hook's state `{ lastCheckedText, endPosition }`. */
  datatype TrimState = TrimState(lastChecked: Option<string>, endPosition: EndPosition)

  /** `{ lastCheckedText: null, endPosition: Infinity }`. */
  const Initial: TrimState := TrimState(None, Infinity)

  /** What troika's `getCaretAtPoint` reports: the caret's character index and its height. */
  datatype Caret = Caret(charIndex: nat, y: real)

  /**
   * The characters JavaScript's `String.prototype.trimEnd` removes: the
   * WhiteSpace and LineTerminator code points of ECMAScript (tab, vertical
   * tab, form feed, space, no-break space, byte order mark, the other Zs
   * space separators, line feed, carriage return, line and paragraph
   * separators).
   */
  predicate IsWhitespace(c: char) {
    || c == '\t' || c == '\n' || c == '\U{000B}' || c == '\U{000C}' || c == '\r' || c == ' '
    || c == '\U{00A0}' || c == '\U{1680}' || ('\U{2000}' <= c <= '\U{200A}')
    || c == '\U{2028}' || c == '\U{2029}' || c == '\U{202F}' || c == '\U{205F}'
    || c == '\U{3000}' || c == '\U{FEFF}'
  }

  /** `s.trimEnd()`: the longest prefix of `s` that does not end in whitespace. */
  function TrimEnd(s: string): (r: string)
    ensures |r| <= |s| && r == s[..|r|]
    ensures r == [] || !IsWhitespace(r[|r| - 1])
    ensures forall k :: |r| <= k < |s| ==> IsWhitespace(s[k])
  {
    if |s| == 0 || !IsWhitespace(s[|s| - 1]) then s
    else
      var r := TrimEnd(s[..|s| - 1]);
      assert s[..|s| - 1][..|r|] == s[..|r|];
      r
  }

  /** `fullText === lastCheckedText && fullText.length > endPosition`. */
  predicate TooLong(fullText: string, st: TrimState) {
    && st.lastChecked == Some(fullText)
    && st.endPosition.At?
    && |fullText| > st.endPosition.index
  }

  /**
   * `trimmedText`: the full text, unless it is the text last checked and is
   * longer than the recorded cut, in which case the text up to the cut with
   * trailing whitespace dropped.
   */
  function Trimmed(fullText: string, st: TrimState): (r: string)
    ensures |r| <= |fullText| && r == fullText[..|r|]
    ensures !TooLong(fullText, st) ==> r == fullText
    ensures TooLong(fullText, st) ==>
      && |r| <= st.endPosition.index
      && (r == [] || !IsWhitespace(r[|r| - 1]))
      && forall k :: |r| <= k < st.endPosition.index ==> IsWhitespace(fullText[k])
  {
    if TooLong(fullText, st) then
      var cut := fullText[..st.endPosition.index];
      var r := TrimEnd(cut);
      assert cut[..|r|] == fullText[..|r|];
      r
    else fullText
  }

  /**
   * `onSyncTroikaText`: when the rendered text is not the one last checked,
   * record it, with the caret's index as the cut if the caret sits less than
   * one line height above the clip bottom `checkY` (y points up), and no cut
   * otherwise. `caret` is None when `getCaretAtPoint` throws.
   */
  function Sync(fullText: string, st: TrimState, caret: Option<Caret>, lineHeight: real, checkY: real): (r: TrimState)
    ensures st.lastChecked == Some(fullText) ==> r == st
    ensures r.lastChecked == Some(fullText)
    ensures st.lastChecked != Some(fullText) ==>
      (r.endPosition.At? <==> caret.Some? && caret.value.y - lineHeight < checkY)
    ensures st.lastChecked != Some(fullText) && r.endPosition.At? ==> r.endPosition.index == caret.value.charIndex
  {
    if st.lastChecked == Some(fullText) then st
    else
      match caret
      case None => TrimState(Some(fullText), Infinity)
      case Some(c) =>
        if c.y - lineHeight < checkY then TrimState(Some(fullText), At(c.charIndex))
        else TrimState(Some(fullText), Infinity)
  }

  /** Before the first sync the text is shown whole. */
  lemma InitialUntrimmed(fullText: string)
    ensures Trimmed(fullText, Initial) == fullText
  {
  }

  /** A second sync of the same text changes nothing, whatever the layout reports. */
  lemma SyncIdempotent(fullText: string, st: TrimState, c1: Option<Caret>, c2: Option<Caret>,
                       h1: real, h2: real, y1: real, y2: real)
    ensures Sync(fullText, Sync(fullText, st, c1, h1, y1), c2, h2, y2) == Sync(fullText, st, c1, h1, y1)
  {
  }

  /**
   * A text is shown whole when its check found no caret, or a caret at least
   * one line height above the clip bottom, or a cut at or past its end.
   */
  lemma NoCutShowsAll(fullText: string, st: TrimState, caret: Option<Caret>, lineHeight: real, checkY: real)
    requires st.lastChecked != Some(fullText)
    requires caret.None? || caret.value.y - lineHeight >= checkY || caret.value.charIndex >= |fullText|
    ensures Trimmed(fullText, Sync(fullText, st, caret, lineHeight, checkY)) == fullText
  {
  }

  /** A cut inside the text trims it to at most the cut, whitespace-free at the end. */
  lemma CutTrims(fullText: string, st: TrimState, c: Caret, lineHeight: real, checkY: real)
    requires st.lastChecked != Some(fullText)
    requires c.y - lineHeight < checkY && c.charIndex < |fullText|
    ensures var r := Trimmed(fullText, Sync(fullText, st, Some(c), lineHeight, checkY));
      && |r| <= c.charIndex
      && r == TrimEnd(fullText[..c.charIndex])
  {
  }

  /** When the text changes, the old cut is ignored until the new text is synced. */
  lemma StaleCutIgnored(fullText: string, st: TrimState)
    requires st.lastChecked != Some(fullText)
    ensures Trimmed(fullText, st) == fullText
  {
  }
}

=== FILE: wrappers.dfy ===
/** The `null`/`undefined` of the TypeScript code, as an explicit Option. */
module Wrappers {

  datatype Option<+T> = None | Some(value: T) {

    /** The value inside Some, or the default when None (the `??` operator). */
    function GetOr(default: T): T {
      match this
      case Some(v) => v
      case None => default
    }
  }
}
